=== FILE: README.md ===
# Memphis broker: dashboard decisions, zombie reconciliation and analytics identity

A Dafny model of four small pieces of decision logic in the Memphis.dev broker repository:

- **SDK code-example viewer** (station overview page). It resolves the broker host from the sandbox flag and the stored environment and namespace. It takes the station name from the page URL. It fills the `<memphis-host>` / `<station-name>` placeholders of an SDK template, or the `localhost` / `<station-name>` spots of a REST (HTTP proxy) template. It keeps a selection state of language, protocol, tab and shown code.
- **Onboarding wizard panel** (`GetStartedItem`). A pure map from the wizard store's `{currentStep, isHiddenButton, nextDisable, isLoading}` to a view descriptor: the layouts, the footer and its buttons.
- **Zombie-resource reconciliation**. Connections still marked active that no client reports are killed. Their producers and consumers are cascaded. Stations whose stream is gone are marked deleted. Before the periodic passes start, the server waits a bounded time for leadership.
- **Analytics identity**. The `distinctId` events are reported under, the property map each event carries, and the first-boot initialisation of the `deployment_id` and `analytics` system keys.

Database collections are sequences of immutable records. The answers of MongoDB, NATS and PostHog are parameters: fault flags, decoded replies, the set of stations whose stream lookup reports "stream not found". The browser's `localStorage`, `process.env` and `window.location` are plain parameters too. An absent stored value reads as JavaScript `null`, and concatenation renders it as `"null"`. An absent station name is `undefined`, and `replaceAll` substitutes the text `"undefined"` for it.

JavaScript's `String.prototype.replaceAll`, `split` and `indexOf` are modelled in `JsStrings` with their standard semantics. This includes the `$$`, `$&`, `` $` `` and `$'` patterns that a replacement string may contain (the GetSubstitution operation of ECMA-262). `replaceAll` is defined as a left-to-right scan. It is proved equal to the independent split-then-join definition whenever the pattern is non-empty and the replacement holds no `$`.

Files: `wrappers.dfy` (Option/Result), `seqs.dfy` (sequence facts), `jsstrings.dfy`, `sdkexample.dfy`, `getstarteditem.dfy`, `objectids.dfy` (12-byte ids and their lowercase hex form), `strconv.dfy` (`strconv.Itoa`), `zombieresources.dfy`, `analytics.dfy`.

Two behaviours of the code are worth stating plainly:
- In the SDK path the sandbox flag wins over a stored `docker` environment. The host is `localhost` only when the sandbox flag is falsy (`SdkExample.SdkHost`). Only the REST path yields `localhost` for `docker` whatever else is set.
- The station name is everything between the first `stations/` and the next one, or the end of the URL. That includes any further `/`, query or fragment (`SdkExample.StationName`).

## Model

| member | source | states |
|---|---|---|
| SdkExample.SdkHost | ui_src/src/domain/stationOverview/components/sdkExsample/index.js:51-55 | The sandbox host appears iff the sandbox flag is truthy. `localhost` appears iff the flag is falsy and the stored env is `docker`. Otherwise the host is `memphis-cluster.<namespace>.svc.cluster.local`, with an absent namespace rendered as `null`. |
| SdkExample.RestHost | ui_src/src/domain/stationOverview/components/sdkExsample/index.js:67-70 | `localhost` appears iff the stored env is `docker`. Otherwise the host is `memphis-http-proxy.<namespace>.svc.cluster.local`. It is never the sandbox host: this path has no sandbox case. |
| SdkExample.StationName | ui_src/src/domain/stationOverview/components/sdkExsample/index.js:44-45 | The result is absent iff the URL holds no `stations/`. Otherwise it is the text right after the first `stations/`. That text contains no `stations/` and is followed by the end of the URL or by the next `stations/`. |
| SdkExample.SdkCodeFor | ui_src/src/domain/stationOverview/components/sdkExsample/index.js:47-61 | Succeeds iff the language is in the SDK table; otherwise it reports the missing template. On success it gives an SDK example with producer and consumer. |
| SdkExample.RestCodeFor | ui_src/src/domain/stationOverview/components/sdkExsample/index.js:63-75 | Succeeds iff the language is in the REST table. On success it gives a REST example with only producer and token-generation code. |
| SdkExample.RestSubstitutionOrder | ui_src/src/domain/stationOverview/components/sdkExsample/index.js:71-73 | For `$`-free host and station texts, the REST producer equals the template split at `localhost` and joined with the REST host, then split at `<station-name>` and joined with the station name. The token request is split at `localhost` and joined with the host. |
| SdkExample.SdkSubstitutionOrder | ui_src/src/domain/stationOverview/components/sdkExsample/index.js:56-59 | For `$`-free host and station texts, each SDK snippet equals: split at `<memphis-host>` and join with the host, then split at `<station-name>` and join with the station name. All host placeholders in both snippets are replaced before any station placeholder. |
| SdkExample.StationFilledAfterHost | ui_src/src/domain/stationOverview/components/sdkExsample/index.js:56-59 | For any SDK template whose producer contains `<station-name>`, a `$`-free station name that contains `<memphis-host>` leaves `<memphis-host>` in the produced producer. The host pass runs first and never reaches text inserted later. |
| SdkExample.HostStepKeepsStation | ui_src/src/domain/stationOverview/components/sdkExsample/index.js:56-57 | The host pass keeps a `<station-name>` occurrence, because occurrences of the two placeholders never overlap. |
| SdkExample.StationStepInsertsHost | ui_src/src/domain/stationOverview/components/sdkExsample/index.js:58 | When the producer holds `<station-name>`, the station pass puts the whole `$`-free station name into it, including any `<memphis-host>` the name contains. |
| SdkExample.RestDockerHostStepIsIdentity | ui_src/src/domain/stationOverview/components/sdkExsample/index.js:67-73 | In docker mode, replacing `localhost` is the identity on producer and token request. The REST example is then the producer with only its station placeholder filled, plus the untouched token template. |
| SdkExample.TokenIgnoresStation | ui_src/src/domain/stationOverview/components/sdkExsample/index.js:71-73 | The token-generation snippet does not depend on the page URL: `<station-name>` is substituted in the producer only. |
| SdkExample.InitialState | ui_src/src/domain/stationOverview/components/sdkExsample/index.js:30-42 | The initial language is `Go` and the protocol `SDK (TCP)`, with blank code. The tab is `Consumer` iff the `consumer` prop is truthy. |
| SdkExample.Mount | ui_src/src/domain/stationOverview/components/sdkExsample/index.js:77-79 | Succeeds iff the SDK table holds the selected language under the SDK protocol, and iff the REST table holds `cURL` otherwise; a failure names that language. Only the code changes. Under the SDK protocol the code is the selected language's SDK example. Under any other protocol it is the cURL REST example, whatever language is selected. |
| SdkExample.SelectLang | ui_src/src/domain/stationOverview/components/sdkExsample/index.js:81-84 | Succeeds iff the table of the current protocol holds the language. It sets the language and keeps protocol and tab. The code shown is that language's example from the SDK table under `SDK (TCP)`, and from the REST table otherwise. |
| SdkExample.SelectProtocol | ui_src/src/domain/stationOverview/components/sdkExsample/index.js:86-95 | `REST (HTTP)` gives language `cURL` and the cURL REST example. Any other protocol gives `Go` and the Go SDK example. The protocol is stored and the tab kept. It succeeds iff the needed template exists. |
| SdkExample.SelectTab | ui_src/src/domain/stationOverview/components/sdkExsample/index.js:170 | Only the tab changes. |
| SdkExample.Panels | ui_src/src/domain/stationOverview/components/sdkExsample/index.js:160-200 | The SDK panel shows iff the protocol is `SDK (TCP)` and the REST panel iff it is `REST (HTTP)`. For a listed protocol, exactly one panel shows. |
| SdkExample.MountConsistent | ui_src/src/domain/stationOverview/components/sdkExsample/index.js:77-79 | The mounted initial state is consistent: a listed protocol, an offered language, and that language's example shown. With tables that hold every offered language, the mount succeeds. |
| SdkExample.SelectLangConsistent | ui_src/src/domain/stationOverview/components/sdkExsample/index.js:146-156 | From a consistent selection, choosing an offered language gives a consistent one, showing the chosen language's example. With complete tables the choice succeeds. |
| SdkExample.SelectProtocolConsistent | ui_src/src/domain/stationOverview/components/sdkExsample/index.js:131-141 | Choosing a listed protocol gives a consistent selection from any state. The reset language's example is shown. With complete tables the choice succeeds. |
| SdkExample.SelectTabConsistent | ui_src/src/domain/stationOverview/components/sdkExsample/index.js:170 | Switching tabs keeps a consistent selection consistent. |
| JsStrings.IndexOf | ui_src/src/domain/stationOverview/components/sdkExsample/index.js:45 | The result is the first index at or after the start where the pattern occurs. It is absent iff there is no such index. |
| JsStrings.JoinSplit | ui_src/src/domain/stationOverview/components/sdkExsample/index.js:45 | Joining the pieces of a split with the separator gives back the original string. |
| JsStrings.Split | ui_src/src/domain/stationOverview/components/sdkExsample/index.js:45 | `url.split(sep)` for a non-empty separator: at least one piece. `JoinSplit` and `SplitPiecesSeparatorFree` pin it down: joining the pieces gives the string back, and no piece holds the separator. |
| JsStrings.SplitPiecesSeparatorFree | ui_src/src/domain/stationOverview/components/sdkExsample/index.js:45 | No piece of a split contains the separator. |
| JsStrings.ReplaceAll | ui_src/src/domain/stationOverview/components/sdkExsample/index.js:56-59 | The left-to-right `replaceAll` scan, which expands the replacement for each match. `ReplaceAllIsSplitJoin` pins it down: for a non-empty pattern and a `$`-free replacement it equals split-then-join. |
| JsStrings.ReplaceAllIsSplitJoin | ui_src/src/domain/stationOverview/components/sdkExsample/index.js:56-59 | `replaceAll` with a non-empty pattern and a `$`-free replacement equals split-at-pattern then join-with-replacement. |
| JsStrings.ReplaceAllSelf | ui_src/src/domain/stationOverview/components/sdkExsample/index.js:71-73 | Replacing a `$`-free pattern with itself changes nothing. |
| JsStrings.NoMatchUnchanged | ui_src/src/domain/stationOverview/components/sdkExsample/index.js:56-59 | A pattern that does not occur leaves the string unchanged, whatever the replacement. |
| JsStrings.ReplaceAllWhole | ui_src/src/domain/stationOverview/components/sdkExsample/index.js:58-59 | A string that is exactly the pattern becomes the replacement's expansion, with empty text before and after the match. |
| JsStrings.ExpandLiteral | ui_src/src/domain/stationOverview/components/sdkExsample/index.js:56-59 | A replacement without `$` is inserted literally. |
| JsStrings.ExpandPatterns | ui_src/src/domain/stationOverview/components/sdkExsample/index.js:56-59 | In a replacement, `$$` gives `$`, `$&` the matched text, `` $` `` the text before the match and `$'` the text after it, while `$1` and a lone `$` stay as written. |
| JsStrings.ReplaceAllKeeps | ui_src/src/domain/stationOverview/components/sdkExsample/index.js:56-59 | An occurrence of another string that no occurrence of the pattern overlaps can still be found after `replaceAll`. |
| JsStrings.ReplaceAllInserts | ui_src/src/domain/stationOverview/components/sdkExsample/index.js:56-59 | When the pattern occurs, the output is the text before its first occurrence, then the `$`-free replacement, then the scan of the rest. |
| GetStartedItem.Render | ui_src/src/components/getStartedItem/index.js:34-131 | Exactly one layout shows, and it is the final one iff `currentStep == 5`. The footer shows iff the button is not hidden and `currentStep != 5`. A shown footer never holds `Go to station`, and its Next button reads `Next` at `129px`. Back shows iff `currentStep != 1`, and a shown Back is never disabled. |
| GetStartedItem.ButtonsMirrorState | ui_src/src/components/getStartedItem/index.js:78-127 | Every shown button's loading flag equals `isLoading`. Every Next button's disabled flag equals `nextDisable`. A click only invokes `onNext` or `onBack`, and `onBack` exactly for Back. A shown footer has exactly one Next button, plus Back off step 1. |
| ObjectIds.Hex | server/memphis_zombie_resources.go:185 | The hex form of an id is 24 characters long. |
| ObjectIds.HexInjective | server/memphis_zombie_resources.go:185 | Two ids have the same hex form iff they are equal. |
| Strconv.Itoa | server/memphis_zombie_resources.go:126-130 | The result is non-empty, starts with `-` iff the number is negative, and otherwise holds only digits. `Atoi` of the result gives the number back, for every integer. |
| Strconv.Digits | server/memphis_zombie_resources.go:126 | The decimal rendering is non-empty, holds only digits and has no leading zero. |
| ZombieResources.ActiveConnections | server/memphis_zombie_resources.go:94-105 | The result holds exactly the stored connections that are active. |
| ZombieResources.Aggregate | server/memphis_zombie_resources.go:151-155 | The merged keys are exactly the union of the keys of all decoded replies, each mapped to `""`. |
| ZombieResources.AggregateClientConnections | server/memphis_zombie_resources.go:138-168 | Fails iff the subscription fails. Otherwise the merged keys are exactly the union of the keys of the decoded replies, and every merged value is `""`. |
| ZombieResources.ZombieConnections | server/memphis_zombie_resources.go:184-190 | An active connection's id is a zombie iff its hex form is not a reported key. Every zombie comes from the active list. |
| ZombieResources.ZombiesAppend | server/memphis_zombie_resources.go:184-190 | The zombies of a concatenation are the zombies of each part in turn, so the original order is kept. |
| ZombieResources.ZombieIffUnreported | server/memphis_zombie_resources.go:184-190 | When the reported keys are the hex forms of a set of ids, a connection is a zombie iff its id is not in that set. |
| ZombieResources.KillConnections | server/memphis_zombie_resources.go:27-38 | `is_active` becomes false exactly for connections whose `_id` is listed. No other field or record changes. |
| ZombieResources.KillByConnection | server/memphis_zombie_resources.go:40-64 | Producers or consumers whose `connection_id` is listed become inactive. No other field or record changes. |
| ZombieResources.KillIdempotent | server/memphis_zombie_resources.go:27-64 | Killing twice with the same ids equals killing once, for connections and for producers/consumers. |
| ZombieResources.MarkDeleted | server/memphis_zombie_resources.go:83-85 | The deletion update for a name marks deleted every station of that name. Nothing else changes. |
| ZombieResources.Undeleted | server/memphis_zombie_resources.go:67-75 | The starting snapshot holds exactly the stations not yet deleted. |
| ZombieResources.RemoveStaleStations | server/memphis_zombie_resources.go:66-92 | A station not yet deleted whose stream is reported missing, and whose update succeeds, gets `is_deleted = true`. Every other station is unchanged. |
| ZombieResources.KillFunc | server/memphis_zombie_resources.go:170-211 | A failed active-connection query ends the pass unchanged, and so does a failed subscription. With no active connection, no connection, producer or consumer changes. A successful connection kill deactivates exactly the zombies. Producers and consumers change only after that kill succeeds, and each cascade depends only on its own update. Stale stations are removed unless the pass was cut short. |
| ZombieResources.WaitForLeader | server/memphis_zombie_resources.go:213-224 | On a cluster it proceeds iff one of the first five checks sees leadership. The leader check comes before the counter check, and it gives up after the fifth check. A single server proceeds without checking. |
| ZombieResources.ActiveCount | server/memphis_zombie_resources.go:109-119 | The count equals the number of positions holding an active record, which is what `CountDocuments` with `is_active: true` returns. So it is positive iff some record is active, and never exceeds the number of records. |
| ZombieResources.ActivityReport | server/memphis_zombie_resources.go:108-136 | A `data-sent` event exists iff both counts succeed, analytics is on, and some producer or consumer is active. Its `active-producers` and `active-consumers` properties are the decimal counts. |
| Analytics.DistinctId | analytics/analytics.go:113-120 | A non-empty `DEV_ENV` gives `dev` whatever the other inputs. Otherwise the id ends in `-` + userId. It is `sandbox-` + userId when `SANDBOX_ENV == "true"` and exactly the deployment id, `-` and userId otherwise. |
| Analytics.ApplyParams | analytics/analytics.go:143-145 | The `p.Set` loop over the parameters, in order. `ApplyParamsLastWins` pins it down: each name ends with its last parameter's value, and every other key is kept. |
| Analytics.LastValue | analytics/analytics.go:143-145 | The reference reading of last-write-wins: a found value belongs to a parameter of that name with no later parameter of that name, and nothing is found iff no parameter has the name. |
| Analytics.ApplyParamsLastWins | analytics/analytics.go:143-145 | Setting parameters in order leaves each name with its last parameter's value. Every other key keeps its earlier value. |
| Analytics.SendEvent | analytics/analytics.go:112-130 | The event carries exactly the `memphis-version` property, under the `distinctId` given by the dev / sandbox / deployment rule. |
| Analytics.SendEventWithParams | analytics/analytics.go:132-153 | `memphis-version` holds the configured version even when a parameter uses that name. The event goes under the `distinctId` given by the dev / sandbox / deployment rule. |
| Analytics.EventProperties | analytics/analytics.go:132-153 | Same `distinctId` as `SendEvent`. Each other key is present iff some parameter has that name, and holds the last such value. With no parameters, the capture is `SendEvent`'s. |
| Analytics.ErrDistinctId | analytics/analytics.go:156-161 | The error identity. For every user id, `DistinctId` is this identity itself in a dev build, and this identity followed by `-` and the user id otherwise. |
| Analytics.SendErrEvent | analytics/analytics.go:155-172 | An `error` event with exactly `err_log`, `err_source` and `memphis-version`. Its id is `dev` when `DEV_ENV` is non-empty, otherwise `sandbox` when `SANDBOX_ENV == "true"`, otherwise the deployment id. It is never a user id. |
| Analytics.InitializeAnalytics | analytics/analytics.go:37-93 | Existing keys never change, and only the two system keys may be added. It succeeds iff no lookup, insert of a missing key, or client creation fails. On success: a missing deployment key is created with the fresh id and used, and an existing one is used unchanged. A missing analytics key is stored as `"true"` iff config is `"true"`, else `"false"`, while the flag is the raw config. An existing analytics key gives the flag. |
| Analytics.RestartKeepsIdentity | analytics/analytics.go:39-84 | After a successful first boot, a restart keeps the deployment id and the stored keys. The flag it reads back equals the first boot's flag iff the configured value was `"true"` or `"false"`. |
| Analytics.ShouldClose | analytics/analytics.go:105-110 | The client is closed iff the analytics key is stored as `"true"` and its lookup succeeds. |

## Left out

- `server/memphis_sdk_handlers.go`: subscription wiring and handler dispatch with no decision logic of its own; it is not part of this model.
- The MongoDB, NATS and PostHog calls themselves (`UpdateMany`, `Find`, `CountDocuments`, `InsertOne`, `FindOne`, `memphisStreamInfo`, `subscribeOnGlobalAcc`, `Enqueue`, `posthog.NewWithConfig`). Their outcomes are parameters. A failing update is taken to change nothing; partial application of `UpdateMany` is not modelled.
- Timing and concurrency: goroutines, the mutex of the reply merge, the 50-second reply window, and the 20 s and 60 s tickers. The replies are a finite sequence. The leader checks are a function from tick number to answer. The per-station goroutines of stale-station removal run one after another; their updates commute. The data race on the shared `err` variable in those goroutines is not modelled.
- The endless 60-second pass loop of `KillZombieResources`: one pass is `KillFunc` followed by `ActivityReport`; the repetition is not modelled.
- A failed station query in `removeStaleStations`: the code then reads from a nil cursor, which is a crash, not a decision.
- `shouldSendAnalytics` and `StationNameFromStr(...).Intern()` are not shown. Their results are parameters: a boolean, and the set of names whose stream is reported missing.
- UI rendering: Monaco editor options, JSX markup, CSS, images, videos, and the Copy/Select/Tabs components. The `installation` and `langCode` template fields appear in the data model but are not rendered. The contents of the two template tables are unknown, so the tables are maps and a missing language is an explicit failure.
- What React commits when a selection handler throws on a missing template: the model returns the failure and no state.
- `GetStartedItem` with no store at all: the unguarded `getStartedState.isHiddenButton` would throw. The model always has a store and treats `currentStep` as an integer, so JavaScript's strict comparison against non-numbers is not modelled.
- `JsStrings.Split` requires a non-empty separator; the code only splits at `stations/`. JavaScript strings are UTF-16 code-unit sequences; here they are sequences of Dafny characters.
- `InitializeAnalytics`: the store holds one value per key. The document id given to each inserted key and the PostHog endpoint are not modelled.

=== FILE: analytics.dfy ===
/** Product analytics: the identity events are reported under, the property
    map each event carries, and the first-boot initialisation of the two
    system keys. The event sink and the key store are plain values here. */
module Analytics {
  import opened Wrappers

  const DeploymentKey := "deployment_id"
  const AnalyticsKey := "analytics"
  const VersionProperty := "memphis-version"

  /** The configuration fields analytics reads. */
  datatype Config = Config(devEnv: string, sandboxEnv: string, memphisVersion: string, analytics: string)

  datatype EventParam = EventParam(name: string, value: string)

  /** One event handed to the analytics client. */
  datatype Capture = Capture(distinctId: string, event: string, properties: map<string, string>)

  /** The identity an event of `userId` is reported under: a development
      build reports everything as "dev", a sandbox prefixes the user with
      "sandbox", any other deployment prefixes it with its deployment id. */
  function DistinctId(cfg: Config, deploymentId: string, userId: string): (id: string)
    ensures cfg.devEnv != "" ==> id == "dev"
    ensures cfg.devEnv == "" ==>
      |id| > |userId| && id[|id| - |userId|..] == userId && id[|id| - |userId| - 1] == '-'
    ensures cfg.devEnv == "" && cfg.sandboxEnv == "true" ==> id == "sandbox-" + userId
    ensures cfg.devEnv == "" && cfg.sandboxEnv != "true" ==>
      |deploymentId| <= |id| && id[..|deploymentId|] == deploymentId
    ensures cfg.devEnv == "" && cfg.sandboxEnv != "true" ==> id == deploymentId + "-" + userId
  {
    if cfg.devEnv != "" then "dev"
    else if cfg.sandboxEnv == "true" then "sandbox" + "-" + userId
    else deploymentId + "-" + userId
  }

  /** Sets each parameter in turn; a later parameter of the same name
      overwrites an earlier one. */
  function ApplyParams(props: map<string, string>, params: seq<EventParam>): map<string, string>
    decreases |params|
  {
    if |params| == 0 then props
    else ApplyParams(props[params[0].name := params[0].value], params[1..])
  }

  /** The value of the last parameter named `name`, if any: the reference
      reading of last-write-wins. */
  function LastValue(params: seq<EventParam>, name: string): (r: Option<string>)
    ensures r.Some? ==> exists i :: 0 <= i < |params| && params[i] == EventParam(name, r.value)
                                    && forall j :: i < j < |params| ==> params[j].name != name
    ensures r.None? ==> forall i :: 0 <= i < |params| ==> params[i].name != name
  {
    if |params| == 0 then None
    else if params[|params| - 1].name == name then Some(params[|params| - 1].value)
    else
      var init := params[..|params| - 1];
      assert forall j :: 0 <= j < |init| ==> init[j] == params[j];
      LastValue(init, name)
  }

  /** The last occurrence of a name among `p + rest` is in `rest` if it
      occurs there, else it is `p` itself if `p` has that name. */
  lemma {:induction false} LastValueCons(p: EventParam, rest: seq<EventParam>, name: string)
    ensures LastValue([p] + rest, name) ==
      if LastValue(rest, name).Some? then LastValue(rest, name)
      else if p.name == name then Some(p.value) else None
    decreases |rest|
  {
    var all := [p] + rest;
    if |rest| > 0 {
      assert all[..|all| - 1] == [p] + rest[..|rest| - 1];
      LastValueCons(p, rest[..|rest| - 1], name);
    }
  }

  /** Applying parameters in order leaves each name holding the value of
      its last parameter, and every other key as it was. */
  lemma {:induction false} ApplyParamsLastWins(props: map<string, string>, params: seq<EventParam>, name: string)
    ensures var r := ApplyParams(props, params);
      match LastValue(params, name)
      case Some(v) => name in r && r[name] == v
      case None => (name in r <==> name in props) && (name in props ==> r[name] == props[name])
    decreases |params|
  {
    if |params| > 0 {
      ApplyParamsLastWins(props[params[0].name := params[0].value], params[1..], name);
      LastValueCons(params[0], params[1..], name);
      assert params == [params[0]] + params[1..];
    }
  }

  /** `SendEvent`: a capture carrying only the version. */
  function SendEvent(cfg: Config, deploymentId: string, userId: string, eventName: string): (c: Capture)
    ensures c.properties == map[VersionProperty := cfg.memphisVersion]
    ensures c.event == eventName
    ensures c.distinctId == DistinctId(cfg, deploymentId, userId)
  {
    Capture(DistinctId(cfg, deploymentId, userId), eventName, map[VersionProperty := cfg.memphisVersion])
  }

  /** `SendEventWithParams`: the parameters in order, then the version. */
  function SendEventWithParams(cfg: Config, deploymentId: string, userId: string, params: seq<EventParam>, eventName: string): (c: Capture)
    ensures VersionProperty in c.properties && c.properties[VersionProperty] == cfg.memphisVersion
    ensures c.event == eventName
    ensures c.distinctId == DistinctId(cfg, deploymentId, userId)
  {
    var props := ApplyParams(map[], params)[VersionProperty := cfg.memphisVersion];
    Capture(DistinctId(cfg, deploymentId, userId), eventName, props)
  }

  /** Every parameter name other than the version key ends up holding the
      value of its last occurrence; no other key appears; the version key
      holds the configured version even when a parameter uses that name.
      With no parameters the capture is the one `SendEvent` makes. */
  lemma EventProperties(cfg: Config, deploymentId: string, userId: string, params: seq<EventParam>, eventName: string, name: string)
    ensures var c := SendEventWithParams(cfg, deploymentId, userId, params, eventName);
      && c.distinctId == SendEvent(cfg, deploymentId, userId, eventName).distinctId
      && (name != VersionProperty ==> match LastValue(params, name)
                                      case Some(v) => name in c.properties && c.properties[name] == v
                                      case None => name !in c.properties)
      && (params == [] ==> c == SendEvent(cfg, deploymentId, userId, eventName))
  {
    ApplyParamsLastWins(map[], params, name);
  }

  /** The identity of an error event: like `DistinctId` but without a user. */
  function ErrDistinctId(cfg: Config, deploymentId: string): (id: string)
    ensures forall userId :: DistinctId(cfg, deploymentId, userId) ==
                             (if cfg.devEnv != "" then id else id + "-" + userId)
  {
    if cfg.devEnv != "" then "dev"
    else if cfg.sandboxEnv == "true" then "sandbox"
    else deploymentId
  }

  /** `SendErrEvent`: an "error" event carrying exactly the message, its
      origin and the version. */
  function SendErrEvent(cfg: Config, deploymentId: string, origin: string, errMsg: string): (c: Capture)
    ensures c.event == "error"
    ensures c.properties.Keys == {"err_log", "err_source", VersionProperty}
    ensures c.properties["err_log"] == errMsg && c.properties["err_source"] == origin
    ensures c.properties[VersionProperty] == cfg.memphisVersion
    ensures cfg.devEnv != "" ==> c.distinctId == "dev"
    ensures cfg.devEnv == "" && cfg.sandboxEnv == "true" ==> c.distinctId == "sandbox"
    ensures cfg.devEnv == "" && cfg.sandboxEnv != "true" ==> c.distinctId == deploymentId
  {
    var props := map[]["err_log" := errMsg]["err_source" := origin][VersionProperty := cfg.memphisVersion];
    Capture(ErrDistinctId(cfg, deploymentId), "error", props)
  }

  /** The analytics globals: the deployment id and the analytics flag. */
  datatype Globals = Globals(deploymentId: string, analyticsFlag: string)

  /** Which store operations fail, and whether the client can be created. */
  datatype InitFaults = InitFaults(
    deploymentLookup: bool, deploymentInsert: bool,
    analyticsLookup: bool, analyticsInsert: bool,
    clientCreate: bool)

  datatype InitError = LookupFailed(key: string) | InsertFailed(key: string) | ClientFailed

  /** The error returned (if any), the globals as left behind, and the
      system keys after initialisation. */
  datatype InitOutcome = InitOutcome(err: Option<InitError>, globals: Globals, keys: map<string, string>)

  /** The value stored for the analytics key on first boot. */
  function StoredFlag(cfg: Config): string {
    if cfg.analytics == "true" then "true" else "false"
  }

  /** `InitializeAnalytics` over a key store `keys`, with `freshId` the id it
      would generate and `globals` the values before the call. A missing key
      is the store's "no documents" answer; a lookup fault is any other
      error. Globals are assigned where the code assigns them, so a failed
      insert of the deployment key still leaves the fresh id behind. */
  function InitializeAnalytics(cfg: Config, keys: map<string, string>, freshId: string, faults: InitFaults, globals: Globals): (r: InitOutcome)
    ensures forall k :: k in keys ==> k in r.keys && r.keys[k] == keys[k]
    ensures forall k :: k in r.keys ==> k in keys || k == DeploymentKey || k == AnalyticsKey
    ensures r.err.None? ==> DeploymentKey in r.keys && r.keys[DeploymentKey] == r.globals.deploymentId
    ensures r.err.None? ==> r.globals.deploymentId == (if DeploymentKey in keys then keys[DeploymentKey] else freshId)
    ensures r.err.None? ==> AnalyticsKey in r.keys
    ensures r.err.None? && AnalyticsKey in keys ==> r.globals.analyticsFlag == keys[AnalyticsKey]
    ensures r.err.None? && AnalyticsKey !in keys ==>
      r.keys[AnalyticsKey] == StoredFlag(cfg) && r.globals.analyticsFlag == cfg.analytics
    ensures r.err.None? <==>
      (&& !faults.deploymentLookup && !faults.analyticsLookup && !faults.clientCreate
       && (DeploymentKey in keys || !faults.deploymentInsert)
       && (AnalyticsKey in keys || !faults.analyticsInsert))
  {
    if faults.deploymentLookup then InitOutcome(Some(LookupFailed(DeploymentKey)), globals, keys)
    else
      var g1 := if DeploymentKey in keys then globals.(deploymentId := keys[DeploymentKey])
                else globals.(deploymentId := freshId);
      if DeploymentKey !in keys && faults.deploymentInsert then
        InitOutcome(Some(InsertFailed(DeploymentKey)), g1, keys)
      else
        var keys1 := if DeploymentKey in keys then keys else keys[DeploymentKey := freshId];
        if faults.analyticsLookup then InitOutcome(Some(LookupFailed(AnalyticsKey)), g1, keys1)
        else if AnalyticsKey !in keys1 && faults.analyticsInsert then
          InitOutcome(Some(InsertFailed(AnalyticsKey)), g1, keys1)
        else
          var g2 := if AnalyticsKey in keys1 then g1.(analyticsFlag := keys1[AnalyticsKey])
                    else g1.(analyticsFlag := cfg.analytics);
          var keys2 := if AnalyticsKey in keys1 then keys1 else keys1[AnalyticsKey := StoredFlag(cfg)];
          if faults.clientCreate then InitOutcome(Some(ClientFailed), g2, keys2)
          else InitOutcome(None, g2, keys2)
  }

  /** A restart after a successful first boot keeps the deployment id; the
      analytics flag it reads back equals the first boot's flag exactly when
      the configured value was "true" or "false". */
  lemma RestartKeepsIdentity(cfg: Config, cfg2: Config, keys: map<string, string>, id1: string, id2: string,
                             g: Globals, g2: Globals)
    requires DeploymentKey !in keys && AnalyticsKey !in keys
    requires InitializeAnalytics(cfg, keys, id1, InitFaults(false, false, false, false, false), g).err.None?
    ensures var first := InitializeAnalytics(cfg, keys, id1, InitFaults(false, false, false, false, false), g);
      var second := InitializeAnalytics(cfg2, first.keys, id2, InitFaults(false, false, false, false, false), g2);
      && second.err.None?
      && second.globals.deploymentId == first.globals.deploymentId == id1
      && second.keys == first.keys
      && (second.globals.analyticsFlag == first.globals.analyticsFlag <==> cfg.analytics in {"true", "false"})
  {
  }

  /** `Close`: the client is closed exactly when the stored analytics key
      reads "true"; a failed lookup reads as the empty value. */
  function ShouldClose(keys: map<string, string>, lookupFails: bool): (b: bool)
    ensures b ==> AnalyticsKey in keys && !lookupFails
    ensures b <==> !lookupFails && AnalyticsKey in keys && keys[AnalyticsKey] == "true"
  {
    var value := if lookupFails || AnalyticsKey !in keys then "" else keys[AnalyticsKey];
    value == "true"
  }
}

=== FILE: getstarteditem.dfy ===
/** The onboarding wizard panel: a pure map from the wizard store's state to
    what the panel shows. The panel only reads the store; its buttons hand
    clicks to the `onNext` / `onBack` callbacks of its parent. */
module GetStartedItem {
  import opened Wrappers

  /** The step index of the final, video-showcase step. */
  const FinalStep := 5

  /** The fields of the wizard store the panel reads. */
  datatype WizardState = WizardState(currentStep: int, isHiddenButton: bool, nextDisable: bool, isLoading: bool)

  datatype Layout = IntermediateLayout | FinalLayout

  /** The callback a button's click invokes. */
  datatype Callback = OnNext | OnBack

  datatype ButtonView = ButtonView(placeholder: string, width: string, disabled: bool, isLoading: bool, onClick: Callback)

  /** The footer: an optional `Go to station` button, the Next button, and an
      optional Back button. */
  datatype Footer = Footer(goToStation: Option<ButtonView>, next: ButtonView, back: Option<ButtonView>)

  /** The layouts rendered, in document order, and the footer if rendered. */
  datatype View = View(layouts: seq<Layout>, footer: Option<Footer>)

  /** The purple button; its placeholder text and width depend on whether this is the
      final step. */
  function NextButton(s: WizardState): ButtonView {
    ButtonView(if s.currentStep == FinalStep then "Go to station" else "Next",
               if s.currentStep == FinalStep then "190px" else "129px",
               s.nextDisable, s.isLoading, OnNext)
  }

  function BackButton(s: WizardState): ButtonView {
    ButtonView("Back", "129px", s.currentStep == 1, s.isLoading, OnBack)
  }

  /** The panel's conditional rendering, guard by guard as the component
      writes it: the two layout guards, the footer guard, the inner
      `Go to station` guard and the Back guard. */
  function Render(s: WizardState): (v: View)
    ensures |v.layouts| == 1
    ensures v.layouts[0] == FinalLayout <==> s.currentStep == FinalStep
    ensures v.footer.Some? <==> !s.isHiddenButton && s.currentStep != FinalStep
    ensures v.footer.Some? ==> v.footer.value.goToStation.None?
    ensures v.footer.Some? ==> v.footer.value.next.placeholder == "Next" && v.footer.value.next.width == "129px"
    ensures v.footer.Some? ==> (v.footer.value.back.Some? <==> s.currentStep != 1)
    ensures v.footer.Some? && v.footer.value.back.Some? ==> !v.footer.value.back.value.disabled
  {
    var layouts := (if s.currentStep != FinalStep then [IntermediateLayout] else [])
                 + (if s.currentStep == FinalStep then [FinalLayout] else []);
    var footer :=
      if !s.isHiddenButton && s.currentStep != FinalStep then
        Some(Footer(if s.currentStep == FinalStep then Some(NextButton(s)) else None,
                    NextButton(s),
                    if s.currentStep != 1 then Some(BackButton(s)) else None))
      else None;
    View(layouts, footer)
  }

  /** The buttons of a view, in document order. */
  function Buttons(v: View): seq<ButtonView> {
    match v.footer
    case None => []
    case Some(f) =>
      (match f.goToStation case Some(b) => [b] case None => [])
      + [f.next]
      + (match f.back case Some(b) => [b] case None => [])
  }

  /** Every shown button mirrors the store's loading flag, every Next button
      its `nextDisable` flag, and a click only invokes a callback: the footer
      holds exactly one Next button, and a Back button exactly off step 1. */
  lemma ButtonsMirrorState(s: WizardState)
    ensures var bs := Buttons(Render(s));
      && (forall i :: 0 <= i < |bs| ==> bs[i].isLoading == s.isLoading)
      && (forall i :: 0 <= i < |bs| && bs[i].onClick == OnNext ==> bs[i].disabled == s.nextDisable)
      && (forall i :: 0 <= i < |bs| ==> (bs[i].onClick == OnBack <==> bs[i].placeholder == "Back"))
      && (Render(s).footer.Some? ==> |set i | 0 <= i < |bs| && bs[i].onClick == OnNext| == 1)
      && (Render(s).footer.Some? ==> |bs| == if s.currentStep == 1 then 1 else 2)
  {
    var bs := Buttons(Render(s));
    if Render(s).footer.Some? {
      if s.currentStep == 1 {
        assert bs == [NextButton(s)];
        assert (set i | 0 <= i < |bs| && bs[i].onClick == OnNext) == {0};
      } else {
        assert bs == [NextButton(s), BackButton(s)];
        assert (set i | 0 <= i < |bs| && bs[i].onClick == OnNext) == {0};
      }
    }
  }
}

=== FILE: jsstrings.dfy ===
/** The parts of ECMAScript's String.prototype that the dashboard relies on:
    `indexOf`, `split` with a string separator, `Array.prototype.join`, and
    `replaceAll` with a string pattern and a string replacement, including the
    `$` patterns that GetSubstitution expands inside the replacement. */
module JsStrings {
  import opened Wrappers
  import opened Seqs

  /** `p` occurs in `s` starting at index `i`. */
  predicate MatchAt(s: string, p: string, i: nat) {
    i + |p| <= |s| && s[i..i + |p|] == p
  }

  /** `s.indexOf(p, from)`: the first index at or after `from` where `p` occurs. */
  function IndexOf(s: string, p: string, from: nat): (r: Option<nat>)
    requires from <= |s|
    decreases |s| - from
    ensures r.Some? ==> from <= r.value <= |s| && MatchAt(s, p, r.value)
    ensures r.Some? ==> forall j :: from <= j < r.value ==> !MatchAt(s, p, j)
    ensures r.None? ==> forall j :: from <= j <= |s| ==> !MatchAt(s, p, j)
  {
    if MatchAt(s, p, from) then Some(from)
    else if from == |s| then None
    else IndexOf(s, p, from + 1)
  }

  /** The pieces of `s[from..]` between non-overlapping occurrences of `sep`,
      found left to right. */
  function SplitFrom(s: string, sep: string, from: nat): (r: seq<string>)
    requires |sep| > 0 && from <= |s|
    decreases |s| - from
    ensures |r| >= 1
  {
    match IndexOf(s, sep, from)
    case None => [s[from..]]
    case Some(i) => [s[from..i]] + SplitFrom(s, sep, i + |sep|)
  }

  /** `s.split(sep)` for a non-empty string separator and no limit. */
  function Split(s: string, sep: string): (r: seq<string>)
    requires |sep| > 0
    ensures |r| >= 1
  {
    SplitFrom(s, sep, 0)
  }

  /** `pieces.join(sep)`. */
  function Join(pieces: seq<string>, sep: string): string
  {
    if |pieces| == 0 then ""
    else if |pieces| == 1 then pieces[0]
    else pieces[0] + sep + Join(pieces[1..], sep)
  }

  /** The text GetSubstitution produces for one match of a string pattern:
      `$$` gives `$`, `$&` the matched text, `` $` `` the text before the
      match and `$'` the text after it. A string pattern has no capture
      groups, so `$1` or `$<` and a lone `$` stay literal. */
  function Expand(rep: string, matched: string, before: string, after: string): string
    decreases |rep|
  {
    if |rep| == 0 then ""
    else if rep[0] == '$' && |rep| >= 2 && rep[1] == '$' then "$" + Expand(rep[2..], matched, before, after)
    else if rep[0] == '$' && |rep| >= 2 && rep[1] == '&' then matched + Expand(rep[2..], matched, before, after)
    else if rep[0] == '$' && |rep| >= 2 && rep[1] == '`' then before + Expand(rep[2..], matched, before, after)
    else if rep[0] == '$' && |rep| >= 2 && rep[1] == '\'' then after + Expand(rep[2..], matched, before, after)
    else [rep[0]] + Expand(rep[1..], matched, before, after)
  }

  /** The GetSubstitution patterns one by one: `$$`, `$&`, `` $` `` and `$'`
      expand, while `$1` and a lone `$` stay as written. */
  lemma ExpandPatterns(matched: string, before: string, after: string)
    ensures Expand("$$", matched, before, after) == "$"
    ensures Expand("$&", matched, before, after) == matched
    ensures Expand("$`", matched, before, after) == before
    ensures Expand("$'", matched, before, after) == after
    ensures Expand("$1", matched, before, after) == "$1"
    ensures Expand("$", matched, before, after) == "$"
  {
  }

  /** A replacement without `$` is inserted literally. */
  lemma {:induction false} ExpandLiteral(rep: string, matched: string, before: string, after: string)
    requires '$' !in rep
    ensures Expand(rep, matched, before, after) == rep
    decreases |rep|
  {
    if |rep| > 0 {
      assert rep[0] != '$';
      assert '$' !in rep[1..] by {
        forall k | 0 <= k < |rep[1..]| ensures rep[1..][k] != '$' {
          assert rep[1..][k] == rep[k + 1];
        }
      }
      ExpandLiteral(rep[1..], matched, before, after);
      assert rep == [rep[0]] + rep[1..];
    }
  }

  /** `replaceAll` scanning `s` from index `i`: every match found left to right
      is replaced by its expansion and scanning resumes after the match (one
      character further for the empty pattern, which matches everywhere). */
  function ReplaceFrom(s: string, p: string, r: string, i: nat): string
    requires i <= |s|
    decreases |s| - i
  {
    if MatchAt(s, p, i) then
      var piece := Expand(r, p, s[..i], s[i + |p|..]);
      if |p| > 0 then piece + ReplaceFrom(s, p, r, i + |p|)
      else if i == |s| then piece
      else piece + [s[i]] + ReplaceFrom(s, p, r, i + 1)
    else if i == |s| then ""
    else [s[i]] + ReplaceFrom(s, p, r, i + 1)
  }

  /** `s.replaceAll(p, r)` with string arguments. */
  function ReplaceAll(s: string, p: string, r: string): string
  {
    ReplaceFrom(s, p, r, 0)
  }

  /** One step of the scan at a match of a non-empty pattern. */
  lemma ScanStepMatch(s: string, p: string, r: string, i: nat)
    requires |p| > 0 && i <= |s| && MatchAt(s, p, i)
    ensures ReplaceFrom(s, p, r, i) == Expand(r, p, s[..i], s[i + |p|..]) + ReplaceFrom(s, p, r, i + |p|)
  {
  }

  /** One step of the scan at a character that starts no match. */
  lemma ScanStepCopy(s: string, p: string, r: string, i: nat)
    requires i < |s| && !MatchAt(s, p, i)
    ensures ReplaceFrom(s, p, r, i) == [s[i]] + ReplaceFrom(s, p, r, i + 1)
  {
  }

  /** Scanning across characters that start no match copies them unchanged. */
  lemma {:induction false} ScanCopies(s: string, p: string, r: string, i: nat, k: nat)
    requires |p| > 0 && i <= k <= |s|
    requires forall j :: i <= j < k ==> !MatchAt(s, p, j)
    ensures ReplaceFrom(s, p, r, i) == s[i..k] + ReplaceFrom(s, p, r, k)
    decreases k - i
  {
    if i < k {
      var tail := ReplaceFrom(s, p, r, k);
      ScanCopies(s, p, r, i + 1, k);
      ScanStepCopy(s, p, r, i);
      assert s[i..k] == [s[i]] + s[i + 1..k];
      ConcatAssoc([s[i]], s[i + 1..k], tail);
    }
  }

  /** An occurrence stays an occurrence, shifted, when text is put before it. */
  lemma MatchAfter(a: string, t: string, q: string, k: nat)
    requires MatchAt(t, q, k)
    ensures MatchAt(a + t, q, |a| + k)
  {
    assert (a + t)[|a| + k..|a| + k + |q|] == t[k..k + |q|];
  }

  /** An occurrence stays an occurrence when text is put after it. */
  lemma MatchBefore(t: string, b: string, q: string, k: nat)
    requires MatchAt(t, q, k)
    ensures MatchAt(t + b, q, k)
  {
    assert (t + b)[k..k + |q|] == t[k..k + |q|];
  }

  /** An occurrence inside a string is an occurrence inside any string that
      contains it. */
  lemma MatchInContext(a: string, t: string, b: string, q: string, k: nat)
    requires MatchAt(t, q, k)
    ensures MatchAt(a + t + b, q, |a| + k)
  {
    MatchAfter(a, t, q, k);
    MatchBefore(a + t, b, q, |a| + k);
  }

  /** The characters of an occurrence are those of the pattern. */
  lemma CharOfMatch(s: string, p: string, i: nat, d: nat)
    requires MatchAt(s, p, i) && d < |p|
    ensures s[i + d] == p[d]
  {
    assert s[i..i + |p|][d] == s[i + d];
  }

  /** An occurrence of `q` at the scan position that no occurrence of the
      pattern overlaps is copied to the front of the output. */
  lemma KeepsAtStart(s: string, p: string, r: string, q: string, j: nat)
    requires |p| > 0 && MatchAt(s, q, j)
    requires forall m: nat :: MatchAt(s, p, m) ==> m + |p| <= j || j + |q| <= m
    ensures MatchAt(ReplaceFrom(s, p, r, j), q, 0)
  {
    forall m | j <= m < j + |q| ensures !MatchAt(s, p, m) {
    }
    ScanCopies(s, p, r, j, j + |q|);
    assert s[j..j + |q|] == q;
    assert MatchAt(q, q, 0);
    MatchBefore(q, ReplaceFrom(s, p, r, j + |q|), q, 0);
  }

  /** Scanning from `i`, an occurrence of `q` at `j >= i` that no occurrence
      of the pattern overlaps is copied into the output; `k` is where it
      lands. */
  lemma {:induction false} ReplaceFromKeeps(s: string, p: string, r: string, i: nat, q: string, j: nat) returns (k: nat)
    requires |p| > 0 && i <= j && MatchAt(s, q, j)
    requires forall m: nat :: MatchAt(s, p, m) ==> m + |p| <= j || j + |q| <= m
    ensures MatchAt(ReplaceFrom(s, p, r, i), q, k)
    decreases j - i
  {
    if i == j {
      KeepsAtStart(s, p, r, q, j);
      k := 0;
    } else if MatchAt(s, p, i) {
      var k' := ReplaceFromKeeps(s, p, r, i + |p|, q, j);
      k := KeepsPastMatch(s, p, r, i, q, k');
    } else {
      var k' := ReplaceFromKeeps(s, p, r, i + 1, q, j);
      k := KeepsPastCopy(s, p, r, i, q, k');
    }
  }

  /** An occurrence in the scan after a match is an occurrence in the scan
      from the match. */
  lemma KeepsPastMatch(s: string, p: string, r: string, i: nat, q: string, k': nat) returns (k: nat)
    requires |p| > 0 && i <= |s| && MatchAt(s, p, i)
    requires MatchAt(ReplaceFrom(s, p, r, i + |p|), q, k')
    ensures MatchAt(ReplaceFrom(s, p, r, i), q, k)
  {
    var piece := Expand(r, p, s[..i], s[i + |p|..]);
    ScanStepMatch(s, p, r, i);
    MatchAfter(piece, ReplaceFrom(s, p, r, i + |p|), q, k');
    k := |piece| + k';
  }

  /** An occurrence in the scan after a copied character is an occurrence
      in the scan from that character. */
  lemma KeepsPastCopy(s: string, p: string, r: string, i: nat, q: string, k': nat) returns (k: nat)
    requires i < |s| && !MatchAt(s, p, i)
    requires MatchAt(ReplaceFrom(s, p, r, i + 1), q, k')
    ensures MatchAt(ReplaceFrom(s, p, r, i), q, k)
  {
    ScanStepCopy(s, p, r, i);
    MatchAfter([s[i]], ReplaceFrom(s, p, r, i + 1), q, k');
    k := 1 + k';
  }


  /** `replaceAll` keeps every occurrence of another string `q` that no
      occurrence of the pattern overlaps: `q` can still be found in the
      output. */
  lemma ReplaceAllKeeps(s: string, p: string, r: string, q: string, j: nat)
    requires |p| > 0 && MatchAt(s, q, j)
    requires forall m: nat :: MatchAt(s, p, m) ==> m + |p| <= j || j + |q| <= m
    ensures IndexOf(ReplaceAll(s, p, r), q, 0).Some?
  {
    var k := ReplaceFromKeeps(s, p, r, 0, q, j);
  }

  /** When the pattern occurs, the output is the text before its first
      occurrence, the `$`-free replacement, and the scan of the rest. */
  lemma ReplaceAllInserts(s: string, p: string, r: string)
    requires |p| > 0 && '$' !in r && IndexOf(s, p, 0).Some?
    ensures var k := IndexOf(s, p, 0).value;
      ReplaceAll(s, p, r) == s[..k] + r + ReplaceFrom(s, p, r, k + |p|)
  {
    var k := IndexOf(s, p, 0).value;
    var after := ReplaceFrom(s, p, r, k + |p|);
    ReplaceFromAtMatch(s, p, r, 0, k);
    assert s[0..k] == s[..k];
    assert ReplaceAll(s, p, r) == s[0..k] + r + after;
  }


  /** Join undoes Split: the separator is put back where it was found. */
  lemma {:induction false} JoinSplitFrom(s: string, sep: string, from: nat)
    requires |sep| > 0 && from <= |s|
    ensures Join(SplitFrom(s, sep, from), sep) == s[from..]
    decreases |s| - from
  {
    match IndexOf(s, sep, from)
    case None =>
      JoinSplitLast(s, sep, from);
    case Some(i) =>
      JoinSplitAt(s, sep, sep, from, i);
      SuffixAtMatch(s, sep, from, i);
      JoinSplitFrom(s, sep, i + |sep|);
      SameTail(Join(SplitFrom(s, sep, from), sep), s[from..], s[from..i] + sep,
               Join(SplitFrom(s, sep, i + |sep|), sep), s[i + |sep|..]);
  }

  /** Two sequences that share a head and have equal tails are equal. */
  lemma SameTail<T>(x: seq<T>, y: seq<T>, head: seq<T>, tx: seq<T>, ty: seq<T>)
    requires x == head + tx && y == head + ty && tx == ty
    ensures x == y
  {
  }

  /** The last step of `JoinSplitFrom`: with no separator left, the one
      remaining piece is the suffix itself. */
  lemma JoinSplitLast(s: string, sep: string, from: nat)
    requires |sep| > 0 && from <= |s|
    requires IndexOf(s, sep, from).None?
    ensures Join(SplitFrom(s, sep, from), sep) == s[from..]
  {
    assert SplitFrom(s, sep, from) == [s[from..]];
  }

  /** The split of `s[from..]` at its first separator, joined with `r`:
      the first piece, `r`, and the join of the remaining pieces. */
  lemma JoinSplitAt(s: string, sep: string, r: string, from: nat, i: nat)
    requires |sep| > 0 && from <= |s|
    requires IndexOf(s, sep, from) == Some(i)
    ensures i + |sep| <= |s|
    ensures Join(SplitFrom(s, sep, from), r) == s[from..i] + r + Join(SplitFrom(s, sep, i + |sep|), r)
  {
    var pieces, rest := SplitFrom(s, sep, from), SplitFrom(s, sep, i + |sep|);
    assert pieces == [s[from..i]] + rest;
    JoinCons(pieces, s[from..i], rest, r);
  }

  /** The suffix from `from` around an occurrence of `sep` at `i`. */
  lemma SuffixAtMatch(s: string, sep: string, from: nat, i: nat)
    requires from <= i && MatchAt(s, sep, i)
    ensures s[from..] == s[from..i] + sep + s[i + |sep|..]
  {
    SliceAround(s, from, i, i + |sep|);
  }

  /** A suffix cut in three. */
  lemma SliceAround(s: string, from: nat, i: nat, n: nat)
    requires from <= i <= n <= |s|
    ensures s[from..] == s[from..i] + s[i..n] + s[n..]
  {
  }


  /** Round trip: joining the pieces of a split with the same separator gives
      back the original string. */
  lemma JoinSplit(s: string, sep: string)
    requires |sep| > 0
    ensures Join(Split(s, sep), sep) == s
  {
    JoinSplitFrom(s, sep, 0);
  }

  /** An occurrence inside a slice is an occurrence in the whole string. */
  lemma MatchInSlice(s: string, p: string, a: nat, b: nat, j: nat)
    requires a <= b <= |s| && MatchAt(s[a..b], p, j)
    ensures MatchAt(s, p, a + j)
  {
    var inner, outer := s[a..b][j..j + |p|], s[a + j..a + j + |p|];
    forall k | 0 <= k < |p| ensures inner[k] == outer[k] {
      assert inner[k] == s[a + j + k];
    }
    assert inner == outer;
  }

  /** A stretch of `s` in which no occurrence of `sep` starts holds no `sep`. */
  lemma PieceSeparatorFree(s: string, sep: string, a: nat, b: nat)
    requires |sep| > 0 && a <= b <= |s|
    requires forall j :: a <= j < b ==> !MatchAt(s, sep, j)
    ensures IndexOf(s[a..b], sep, 0).None?
  {
    var r := IndexOf(s[a..b], sep, 0);
    if r.Some? {
      MatchInSlice(s, sep, a, b, r.value);
      assert false;
    }
  }

  /** No piece that SplitFrom cuts out holds the separator. */
  lemma {:induction false} SplitFromPiecesSeparatorFree(s: string, sep: string, from: nat)
    requires |sep| > 0 && from <= |s|
    ensures forall k :: 0 <= k < |SplitFrom(s, sep, from)| ==>
      IndexOf(SplitFrom(s, sep, from)[k], sep, 0).None?
    decreases |s| - from
  {
    var pieces := SplitFrom(s, sep, from);
    match IndexOf(s, sep, from)
    case None =>
      PieceSeparatorFree(s, sep, from, |s|);
      assert pieces == [s[from..]];
      assert s[from..] == s[from..|s|];
    case Some(i) =>
      var rest := SplitFrom(s, sep, i + |sep|);
      SplitFromPiecesSeparatorFree(s, sep, i + |sep|);
      PieceSeparatorFree(s, sep, from, i);
      assert pieces == [s[from..i]] + rest;
      forall k | 0 <= k < |pieces| ensures IndexOf(pieces[k], sep, 0).None? {
        if k > 0 {
          assert pieces[k] == rest[k - 1];
        }
      }
  }

  /** Every piece of `s.split(sep)` is free of the separator: together with
      `JoinSplit` this fixes the split completely. */
  lemma SplitPiecesSeparatorFree(s: string, sep: string)
    requires |sep| > 0
    ensures forall k :: 0 <= k < |Split(s, sep)| ==> IndexOf(Split(s, sep)[k], sep, 0).None?
  {
    SplitFromPiecesSeparatorFree(s, sep, 0);
  }

  /** From index `i` on, replaceAll with a `$`-free replacement is the same as
      splitting at the pattern and joining with the replacement. */
  lemma {:induction false} ReplaceFromIsSplitJoin(s: string, p: string, r: string, i: nat)
    requires |p| > 0 && '$' !in r && i <= |s|
    ensures ReplaceFrom(s, p, r, i) == Join(SplitFrom(s, p, i), r)
    decreases |s| - i
  {
    match IndexOf(s, p, i)
    case None =>
      ScanCopies(s, p, r, i, |s|);
    case Some(k) =>
      JoinSplitAt(s, p, r, i, k);
      ReplaceFromIsSplitJoin(s, p, r, k + |p|);
      ReplaceFromIsSplitJoinStep(s, p, r, i, k);
  }

  /** One step of `ReplaceFromIsSplitJoin`: if the scan after the first match
      agrees with split-then-join, so does the scan from `i`. */
  lemma ReplaceFromIsSplitJoinStep(s: string, p: string, r: string, i: nat, k: nat)
    requires |p| > 0 && '$' !in r && i <= |s|
    requires IndexOf(s, p, i) == Some(k) && k + |p| <= |s|
    requires ReplaceFrom(s, p, r, k + |p|) == Join(SplitFrom(s, p, k + |p|), r)
    ensures ReplaceFrom(s, p, r, i) == Join(SplitFrom(s, p, i), r)
  {
    ReplaceFromAtMatch(s, p, r, i, k);
    JoinSplitAt(s, p, r, i, k);
    SameTail(ReplaceFrom(s, p, r, i), Join(SplitFrom(s, p, i), r), s[i..k] + r,
             ReplaceFrom(s, p, r, k + |p|), Join(SplitFrom(s, p, k + |p|), r));
  }

  /** Scanning up to the next match and replacing it: the text before the
      match, then the `$`-free replacement, then the scan after the match. */
  lemma ReplaceFromAtMatch(s: string, p: string, r: string, i: nat, k: nat)
    requires |p| > 0 && '$' !in r && i <= |s|
    requires IndexOf(s, p, i) == Some(k)
    ensures ReplaceFrom(s, p, r, i) == s[i..k] + r + ReplaceFrom(s, p, r, k + |p|)
  {
    var after := ReplaceFrom(s, p, r, k + |p|);
    ScanCopies(s, p, r, i, k);
    ScanStepMatch(s, p, r, k);
    ExpandLiteral(r, p, s[..k], s[k + |p|..]);
    ConcatAssoc(s[i..k], r, after);
  }


  /** Joining a first piece in front of at least one more. */
  lemma JoinCons(pieces: seq<string>, first: string, rest: seq<string>, sep: string)
    requires pieces == [first] + rest && |rest| >= 1
    ensures Join(pieces, sep) == first + sep + Join(rest, sep)
  {
    assert pieces[1..] == rest;
  }

  /** replaceAll with a non-empty pattern and a `$`-free replacement agrees
      with the independent split-then-join definition. */
  lemma ReplaceAllIsSplitJoin(s: string, p: string, r: string)
    requires |p| > 0 && '$' !in r
    ensures ReplaceAll(s, p, r) == Join(Split(s, p), r)
  {
    ReplaceFromIsSplitJoin(s, p, r, 0);
  }

  /** Replacing a `$`-free pattern with itself changes nothing. */
  lemma ReplaceAllSelf(s: string, p: string)
    requires |p| > 0 && '$' !in p
    ensures ReplaceAll(s, p, p) == s
  {
    ReplaceAllIsSplitJoin(s, p, p);
    JoinSplit(s, p);
  }

  /** A pattern that does not occur leaves the string unchanged, whatever the
      replacement. */
  lemma NoMatchUnchanged(s: string, p: string, r: string)
    requires |p| > 0
    requires IndexOf(s, p, 0).None?
    ensures ReplaceAll(s, p, r) == s
  {
    ScanCopies(s, p, r, 0, |s|);
  }

  /** A string that is exactly the pattern becomes the expansion of the
      replacement, with nothing before and nothing after the match. */
  lemma ReplaceAllWhole(p: string, r: string)
    requires |p| > 0
    ensures ReplaceAll(p, p, r) == Expand(r, p, "", "")
  {
    assert MatchAt(p, p, 0);
    assert !MatchAt(p, p, |p|);
    assert ReplaceFrom(p, p, r, |p|) == "";
    assert p[..0] == "" && p[0 + |p|..] == "";
    assert ReplaceFrom(p, p, r, 0) == Expand(r, p, p[..0], p[0 + |p|..]) + ReplaceFrom(p, p, r, 0 + |p|);
  }
}

=== FILE: objectids.dfy ===
/** Twelve-byte document identifiers and their lowercase hexadecimal form,
    the form in which clients report their connection ids. */
module ObjectIds {

  newtype byte = x: int | 0 <= x < 256

  /** A document id: exactly twelve bytes. */
  type ObjectId = b: seq<byte> | |b| == 12 witness [0, 0, 0, 0, 0, 0, 0, 0, 0, 0, 0, 0]

  /** The lowercase hexadecimal digit for a value below sixteen. */
  function HexDigit(n: int): (c: char)
    requires 0 <= n < 16
    ensures c in "0123456789abcdef"
  {
    if n < 10 then ('0' as int + n) as char else ('a' as int + n - 10) as char
  }

  /** Two hex digits per byte, high nibble first. */
  function HexBytes(b: seq<byte>): (h: string)
    ensures |h| == 2 * |b|
  {
    if |b| == 0 then ""
    else [HexDigit(b[0] as int / 16), HexDigit(b[0] as int % 16)] + HexBytes(b[1..])
  }

  /** `ObjectID.Hex()`. */
  function Hex(id: ObjectId): (h: string)
    ensures |h| == 24
  {
    HexBytes(id)
  }

  lemma HexDigitInjective(n: int, m: int)
    requires 0 <= n < 16 && 0 <= m < 16
    requires HexDigit(n) == HexDigit(m)
    ensures n == m
  {
    assert HexDigit(n) as int == if n < 10 then '0' as int + n else 'a' as int + n - 10;
    assert HexDigit(m) as int == if m < 10 then '0' as int + m else 'a' as int + m - 10;
  }

  /** A byte is determined by its two hex digits. */
  lemma HexPairInjective(x: byte, y: byte)
    requires HexDigit(x as int / 16) == HexDigit(y as int / 16)
    requires HexDigit(x as int % 16) == HexDigit(y as int % 16)
    ensures x == y
  {
    HexDigitInjective(x as int / 16, y as int / 16);
    HexDigitInjective(x as int % 16, y as int % 16);
    assert x as int == 16 * (x as int / 16) + x as int % 16;
    assert y as int == 16 * (y as int / 16) + y as int % 16;
  }

  lemma {:induction false} HexBytesInjective(a: seq<byte>, b: seq<byte>)
    requires HexBytes(a) == HexBytes(b)
    ensures a == b
    decreases |a|
  {
    if |a| > 0 {
      var ha, hb := HexBytes(a), HexBytes(b);
      assert ha == [HexDigit(a[0] as int / 16), HexDigit(a[0] as int % 16)] + HexBytes(a[1..]);
      assert hb == [HexDigit(b[0] as int / 16), HexDigit(b[0] as int % 16)] + HexBytes(b[1..]);
      assert ha[0] == hb[0] && ha[1] == hb[1];
      HexPairInjective(a[0], b[0]);
      assert ha[2..] == HexBytes(a[1..]) && hb[2..] == HexBytes(b[1..]);
      HexBytesInjective(a[1..], b[1..]);
      assert a == [a[0]] + a[1..] && b == [b[0]] + b[1..];
    }
  }

  /** Distinct ids have distinct hex strings, so looking an id up by its hex
      form finds that id and no other. */
  lemma HexInjective(a: ObjectId, b: ObjectId)
    ensures Hex(a) == Hex(b) <==> a == b
  {
    if Hex(a) == Hex(b) {
      HexBytesInjective(a, b);
    }
  }
}

=== FILE: sdkexample.dfy ===
/** The SDK code-example viewer of the station overview page: it resolves the
    broker host from the environment, takes the station name from the page URL,
    fills the placeholders of a code template, and keeps a small selection
    state (language, protocol, tab, code shown). */
module SdkExample {
  import opened Wrappers
  import opened JsStrings

  const SdkProtocol := "SDK (TCP)"
  const RestProtocol := "REST (HTTP)"
  const HostPlaceholder := "<memphis-host>"
  const StationPlaceholder := "<station-name>"
  const StationsSegment := "stations/"
  const SandboxHost := "broker.sandbox.memphis.dev"
  const DockerEnv := "docker"

  /** The protocol selector's options. */
  const ProtocolOptions := [SdkProtocol, RestProtocol]
  /** Languages offered with the SDK protocol. */
  const SdkLanguages := ["Go", "Node.js", "TypeScript", "Python"]
  /** Languages offered with the REST protocol. */
  const RestLanguages := ["cURL", "Go", "Node.js", "Python", "Java", "JavaScript - Fetch", "JavaScript - jQuery"]

  /** One entry of the SDK template table. */
  datatype SdkTemplate = SdkTemplate(installation: string, producer: string, consumer: string, langCode: string)

  /** One entry of the REST (HTTP proxy) template table. */
  datatype RestTemplate = RestTemplate(producer: string, tokenGenerate: string, langCode: string)

  /** The two constant template tables, keyed by language. */
  datatype Tables = Tables(sdk: map<string, SdkTemplate>, rest: map<string, RestTemplate>)

  /** What the component reads from its surroundings: the sandbox build
      variable, the stored environment and namespace (absent keys read as
      JavaScript `null`), and the page URL. */
  datatype Environment = Environment(
    sandboxEnv: Option<string>,
    storedEnv: Option<string>,
    storedNamespace: Option<string>,
    url: string)

  /** The code shown in the editors. `Blank` is the record the component
      starts with; an SDK example carries producer and consumer code, a REST
      example carries producer and token-generation code. */
  datatype CodeExample =
    | Blank
    | SdkCode(producer: string, consumer: string)
    | RestCode(producer: string, tokenGenerate: string)

  datatype Tab = ProducerTab | ConsumerTab

  datatype SelectionState = SelectionState(lang: string, protocol: string, tab: Tab, code: CodeExample)

  /** A template lookup with a language the table does not hold: in the
      component this is a property access on `undefined`. */
  datatype Error = MissingTemplate(lang: string)

  /** The panel rendered below the selectors. */
  datatype Panel = SdkPanel | RestPanel

  /** JavaScript truthiness of an optional string. */
  predicate Truthy(v: Option<string>) {
    v.Some? && v.value != ""
  }

  /** A stored value as string concatenation renders it: absent is "null". */
  function StoredText(v: Option<string>): string {
    match v
    case Some(s) => s
    case None => "null"
  }

  /** The broker host substituted into SDK examples. */
  function SdkHost(env: Environment): (h: string)
    ensures h == SandboxHost <==> Truthy(env.sandboxEnv)
    ensures h == "localhost" <==> !Truthy(env.sandboxEnv) && env.storedEnv == Some(DockerEnv)
    ensures h != SandboxHost && h != "localhost" ==>
      h == "memphis-cluster." + StoredText(env.storedNamespace) + ".svc.cluster.local"
  {
    if Truthy(env.sandboxEnv) then SandboxHost
    else if env.storedEnv == Some(DockerEnv) then "localhost"
    else
      var h := "memphis-cluster." + StoredText(env.storedNamespace) + ".svc.cluster.local";
      assert h[0] == 'm' && h[1] == 'e';
      h
  }

  /** The HTTP-proxy host substituted into REST examples; there is no sandbox
      case here. */
  function RestHost(env: Environment): (h: string)
    ensures h == "localhost" <==> env.storedEnv == Some(DockerEnv)
    ensures h != "localhost" ==>
      h == "memphis-http-proxy." + StoredText(env.storedNamespace) + ".svc.cluster.local"
    ensures h != SandboxHost
  {
    if env.storedEnv == Some(DockerEnv) then "localhost"
    else
      var h := "memphis-http-proxy." + StoredText(env.storedNamespace) + ".svc.cluster.local";
      assert h[0] == 'm';
      h
  }

  /** `url.split('stations/')[1]`: the text between the first `stations/` and
      the next one (or the end); absent when the URL has no `stations/`. */
  function StationName(url: string): (r: Option<string>)
    ensures r.None? <==> IndexOf(url, StationsSegment, 0).None?
    ensures r.Some? ==>
      var start := IndexOf(url, StationsSegment, 0).value + |StationsSegment|;
      && start + |r.value| <= |url|
      && url[start..start + |r.value|] == r.value
      && (start + |r.value| == |url| || MatchAt(url, StationsSegment, start + |r.value|))
      && forall j :: start <= j < start + |r.value| ==> !MatchAt(url, StationsSegment, j)
  {
    var pieces := Split(url, StationsSegment);
    if |pieces| >= 2 then
      SecondPiece(url, StationsSegment);
      Some(pieces[1])
    else None
  }

  /** Where the second piece of a split lies in the split string. */
  lemma SecondPiece(s: string, sep: string)
    requires |sep| > 0
    ensures |Split(s, sep)| >= 2 <==> IndexOf(s, sep, 0).Some?
    ensures IndexOf(s, sep, 0).Some? ==>
      var start := IndexOf(s, sep, 0).value + |sep|;
      Split(s, sep)[1] == match IndexOf(s, sep, start)
                          case None => s[start..]
                          case Some(j) => s[start..j]
  {
    match IndexOf(s, sep, 0)
    case None =>
    case Some(i) =>
      var rest := SplitFrom(s, sep, i + |sep|);
      assert Split(s, sep) == [s[..i]] + rest;
  }

  /** The station name as `replaceAll` receives it: an absent name is
      converted to the string "undefined". */
  function StationText(url: string): string {
    match StationName(url)
    case Some(n) => n
    case None => "undefined"
  }

  /** `changeDynamicCode`: every host placeholder is replaced first, in both
      producer and consumer, then every station placeholder. */
  function SdkCodeFor(tables: Tables, lang: string, env: Environment): (r: Result<CodeExample, Error>)
    ensures r.Success? <==> lang in tables.sdk
    ensures r.Failure? ==> r.error == MissingTemplate(lang)
    ensures r.Success? ==> r.value.SdkCode?
  {
    if lang !in tables.sdk then Failure(MissingTemplate(lang))
    else
      var t := tables.sdk[lang];
      var host := SdkHost(env);
      var station := StationText(env.url);
      var producer := ReplaceAll(t.producer, HostPlaceholder, host);
      var consumer := ReplaceAll(t.consumer, HostPlaceholder, host);
      Success(SdkCode(ReplaceAll(producer, StationPlaceholder, station),
                      ReplaceAll(consumer, StationPlaceholder, station)))
  }

  /** `changeProtocolDynamicCode`: the literal `localhost` is replaced in the
      producer and the token request, and the station placeholder in the
      producer only. */
  function RestCodeFor(tables: Tables, lang: string, env: Environment): (r: Result<CodeExample, Error>)
    ensures r.Success? <==> lang in tables.rest
    ensures r.Failure? ==> r.error == MissingTemplate(lang)
    ensures r.Success? ==> r.value.RestCode?
  {
    if lang !in tables.rest then Failure(MissingTemplate(lang))
    else
      var t := tables.rest[lang];
      var host := RestHost(env);
      var producer := ReplaceAll(t.producer, "localhost", host);
      Success(RestCode(ReplaceAll(producer, StationPlaceholder, StationText(env.url)),
                       ReplaceAll(t.tokenGenerate, "localhost", host)))
  }

  /** The state before the mount effect runs. */
  function InitialState(consumer: bool): (s: SelectionState)
    ensures s.lang == "Go" && s.protocol == SdkProtocol && s.code.Blank?
    ensures s.tab == ConsumerTab <==> consumer
  {
    SelectionState("Go", SdkProtocol, if consumer then ConsumerTab else ProducerTab, Blank)
  }

  /** The example a protocol and a language call for: the SDK table under
      the SDK protocol, the REST table under any other. */
  function CodeFor(tables: Tables, env: Environment, protocol: string, lang: string): Result<CodeExample, Error> {
    if protocol == SdkProtocol then SdkCodeFor(tables, lang, env) else RestCodeFor(tables, lang, env)
  }

  /** The editors show the example of the selected protocol and language, or
      nothing has been shown yet. */
  predicate Shows(tables: Tables, env: Environment, s: SelectionState) {
    s.code.Blank? || CodeFor(tables, env, s.protocol, s.lang) == Success(s.code)
  }

  /** Both tables hold every language their selector offers. */
  predicate TablesComplete(tables: Tables) {
    && (forall l :: l in SdkLanguages ==> l in tables.sdk)
    && (forall l :: l in RestLanguages ==> l in tables.rest)
  }

  /** The mount effect: the SDK example for the selected language, or the
      cURL REST example when another protocol is selected. */
  function Mount(s: SelectionState, tables: Tables, env: Environment): (r: Result<SelectionState, Error>)
    ensures r.Success? <==> (if s.protocol == SdkProtocol then s.lang in tables.sdk else "cURL" in tables.rest)
    ensures r.Failure? ==> r.error == MissingTemplate(if s.protocol == SdkProtocol then s.lang else "cURL")
    ensures r.Success? ==> r.value.(code := s.code) == s
    ensures r.Success? && s.protocol == SdkProtocol ==> r.value.code.SdkCode? && Shows(tables, env, r.value)
    ensures r.Success? && s.protocol != SdkProtocol ==>
      r.value.code.RestCode? && Shows(tables, env, r.value.(lang := "cURL"))
  {
    var code := if s.protocol == SdkProtocol then SdkCodeFor(tables, s.lang, env)
                else RestCodeFor(tables, "cURL", env);
    match code
    case Failure(e) => Failure(e)
    case Success(c) => Success(s.(code := c))
  }

  /** `handleSelectLang` as the language selector calls it: the SDK table is
      used exactly when the selected protocol is the SDK one. */
  function SelectLang(s: SelectionState, lang: string, tables: Tables, env: Environment): (r: Result<SelectionState, Error>)
    ensures r.Success? <==> (if s.protocol == SdkProtocol then lang in tables.sdk else lang in tables.rest)
    ensures r.Success? ==> r.value.lang == lang && r.value.protocol == s.protocol && r.value.tab == s.tab
    ensures r.Success? ==> (r.value.code.SdkCode? <==> s.protocol == SdkProtocol)
    ensures r.Success? ==> !r.value.code.Blank? && Shows(tables, env, r.value)
  {
    var code := if s.protocol == SdkProtocol then SdkCodeFor(tables, lang, env)
                else RestCodeFor(tables, lang, env);
    match code
    case Failure(e) => Failure(e)
    case Success(c) => Success(s.(lang := lang, code := c))
  }

  /** `handleSelectProtocol`: REST resets the language to cURL and shows the
      REST example, any other protocol resets it to Go and shows the SDK one. */
  function SelectProtocol(s: SelectionState, protocol: string, tables: Tables, env: Environment): (r: Result<SelectionState, Error>)
    ensures r.Success? <==> (if protocol == RestProtocol then "cURL" in tables.rest else "Go" in tables.sdk)
    ensures r.Success? ==> r.value.protocol == protocol && r.value.tab == s.tab
    ensures r.Success? ==> (r.value.lang == "cURL" <==> protocol == RestProtocol)
    ensures r.Success? ==> (r.value.lang == "Go" <==> protocol != RestProtocol)
    ensures r.Success? ==> (r.value.code.RestCode? <==> protocol == RestProtocol)
    ensures r.Success? ==> !r.value.code.Blank?
    ensures r.Success? ==>
      Shows(tables, env, r.value.(protocol := if protocol == RestProtocol then RestProtocol else SdkProtocol))
  {
    if protocol == RestProtocol then
      match RestCodeFor(tables, "cURL", env)
      case Failure(e) => Failure(e)
      case Success(c) => Success(s.(protocol := protocol, lang := "cURL", code := c))
    else
      match SdkCodeFor(tables, "Go", env)
      case Failure(e) => Failure(e)
      case Success(c) => Success(s.(protocol := protocol, lang := "Go", code := c))
  }

  /** The tab control: only the tab changes. */
  function SelectTab(s: SelectionState, tab: Tab): (r: SelectionState)
    ensures r.tab == tab && r.(tab := s.tab) == s
  {
    s.(tab := tab)
  }

  /** The languages the selector offers for a protocol. */
  function LanguageOptions(protocol: string): seq<string> {
    if protocol == SdkProtocol then SdkLanguages else RestLanguages
  }

  /** The panels rendered for a selection. */
  function Panels(s: SelectionState): (ps: set<Panel>)
    ensures s.protocol in ProtocolOptions ==> |ps| == 1
    ensures SdkPanel in ps <==> s.protocol == SdkProtocol
    ensures RestPanel in ps <==> s.protocol == RestProtocol
  {
    (if s.protocol == SdkProtocol then {SdkPanel} else {}) +
    (if s.protocol == RestProtocol then {RestPanel} else {})
  }

  /** A selection reachable through the selectors: a listed protocol, a
      language offered for it, and, once any code is shown, the example of
      that protocol and language. */
  predicate Consistent(tables: Tables, env: Environment, s: SelectionState) {
    && s.protocol in ProtocolOptions
    && s.lang in LanguageOptions(s.protocol)
    && Shows(tables, env, s)
  }

  /** In docker mode the REST host is `localhost`, so the host step leaves
      both producer and token request as they were: only the station
      placeholder of the producer is filled. */
  lemma RestDockerHostStepIsIdentity(tables: Tables, lang: string, env: Environment)
    requires lang in tables.rest && env.storedEnv == Some(DockerEnv)
    ensures RestCodeFor(tables, lang, env) ==
      Success(RestCode(ReplaceAll(tables.rest[lang].producer, StationPlaceholder, StationText(env.url)),
                       tables.rest[lang].tokenGenerate))
  {
    ReplaceAllSelf(tables.rest[lang].producer, "localhost");
    ReplaceAllSelf(tables.rest[lang].tokenGenerate, "localhost");
  }

  /** The token request never receives the station name: it is the same for
      every page URL. */
  lemma TokenIgnoresStation(tables: Tables, lang: string, env: Environment, url: string)
    requires lang in tables.rest
    ensures RestCodeFor(tables, lang, env).value.tokenGenerate ==
            RestCodeFor(tables, lang, env.(url := url)).value.tokenGenerate
  {
  }

  /** With `$`-free host and station texts, the REST example is the
      producer split at `localhost` and joined with the host, then split at
      the station placeholder and joined with the station name, next to the
      token request split at `localhost` and joined with the host. */
  lemma RestSubstitutionOrder(tables: Tables, lang: string, env: Environment)
    requires lang in tables.rest
    requires '$' !in RestHost(env) && '$' !in StationText(env.url)
    ensures var t := tables.rest[lang];
      var host := RestHost(env);
      RestCodeFor(tables, lang, env) ==
        Success(RestCode(Join(Split(Join(Split(t.producer, "localhost"), host), StationPlaceholder), StationText(env.url)),
                         Join(Split(t.tokenGenerate, "localhost"), host)))
  {
    var t := tables.rest[lang];
    var host := RestHost(env);
    ReplaceAllIsSplitJoin(t.producer, "localhost", host);
    ReplaceAllIsSplitJoin(ReplaceAll(t.producer, "localhost", host), StationPlaceholder, StationText(env.url));
    ReplaceAllIsSplitJoin(t.tokenGenerate, "localhost", host);
  }

  /** With `$`-free host and station texts, the SDK example is the template
      split at the host placeholder and joined with the host, then split at
      the station placeholder and joined with the station name. */
  lemma SdkSubstitutionOrder(tables: Tables, lang: string, env: Environment)
    requires lang in tables.sdk
    requires '$' !in SdkHost(env) && '$' !in StationText(env.url)
    ensures var t := tables.sdk[lang];
      var host := SdkHost(env);
      var station := StationText(env.url);
      SdkCodeFor(tables, lang, env) ==
        Success(SdkCode(Join(Split(Join(Split(t.producer, HostPlaceholder), host), StationPlaceholder), station),
                        Join(Split(Join(Split(t.consumer, HostPlaceholder), host), StationPlaceholder), station)))
  {
    var t := tables.sdk[lang];
    var host := SdkHost(env);
    var station := StationText(env.url);
    ReplaceAllIsSplitJoin(t.producer, HostPlaceholder, host);
    ReplaceAllIsSplitJoin(t.consumer, HostPlaceholder, host);
    ReplaceAllIsSplitJoin(ReplaceAll(t.producer, HostPlaceholder, host), StationPlaceholder, station);
    ReplaceAllIsSplitJoin(ReplaceAll(t.consumer, HostPlaceholder, host), StationPlaceholder, station);
  }

  /** Because the host step runs first, the host placeholder survives in a
      producer whose template holds the station placeholder whenever the
      station name itself contains `<memphis-host>`. */
  lemma StationFilledAfterHost(tables: Tables, lang: string, env: Environment)
    requires lang in tables.sdk && IndexOf(tables.sdk[lang].producer, StationPlaceholder, 0).Some?
    requires '$' !in StationText(env.url) && IndexOf(StationText(env.url), HostPlaceholder, 0).Some?
    ensures IndexOf(SdkCodeFor(tables, lang, env).value.producer, HostPlaceholder, 0).Some?
  {
    var t := tables.sdk[lang];
    var afterHost := ReplaceAll(t.producer, HostPlaceholder, SdkHost(env));
    HostStepKeepsStation(t.producer, SdkHost(env));
    StationStepInsertsHost(afterHost, StationText(env.url));
  }

  /** Filling the host leaves a station placeholder in place. */
  lemma HostStepKeepsStation(t: string, host: string)
    requires IndexOf(t, StationPlaceholder, 0).Some?
    ensures IndexOf(ReplaceAll(t, HostPlaceholder, host), StationPlaceholder, 0).Some?
  {
    var j := IndexOf(t, StationPlaceholder, 0).value;
    forall m: nat | MatchAt(t, HostPlaceholder, m)
      ensures m + |HostPlaceholder| <= j || j + |StationPlaceholder| <= m
    {
      PlaceholdersApart(t, j, m);
    }
    ReplaceAllKeeps(t, HostPlaceholder, host, StationPlaceholder, j);
  }

  /** Filling a station placeholder with a `$`-free name that contains the
      host placeholder puts that placeholder into the output. */
  lemma StationStepInsertsHost(u: string, station: string)
    requires IndexOf(u, StationPlaceholder, 0).Some?
    requires '$' !in station && IndexOf(station, HostPlaceholder, 0).Some?
    ensures IndexOf(ReplaceAll(u, StationPlaceholder, station), HostPlaceholder, 0).Some?
  {
    var i := IndexOf(u, StationPlaceholder, 0).value;
    var h := IndexOf(station, HostPlaceholder, 0).value;
    var out := ReplaceAll(u, StationPlaceholder, station);
    var rest := ReplaceFrom(u, StationPlaceholder, station, i + |StationPlaceholder|);
    ReplaceAllInserts(u, StationPlaceholder, station);
    assert out == u[..i] + station + rest;
    MatchInContext(u[..i], station, rest, HostPlaceholder, h);
    assert MatchAt(out, HostPlaceholder, |u[..i]| + h);
  }

  /** Occurrences of the two placeholders never overlap. */
  lemma PlaceholdersApart(s: string, j: nat, m: nat)
    requires MatchAt(s, StationPlaceholder, j) && MatchAt(s, HostPlaceholder, m)
    ensures m + |HostPlaceholder| <= j || j + |StationPlaceholder| <= m
  {
    if m == j {
      assert false;
    } else if m < j < m + |HostPlaceholder| {
      CharOfMatch(s, StationPlaceholder, j, 0);
      CharOfMatch(s, HostPlaceholder, m, j - m);
      PlaceholdersOpenOnce();
      assert false;
    } else if j < m < j + |StationPlaceholder| {
      CharOfMatch(s, HostPlaceholder, m, 0);
      CharOfMatch(s, StationPlaceholder, j, m - j);
      PlaceholdersOpenOnce();
      assert false;
    }
  }

  /** Each placeholder holds `<` only as its first character. */
  lemma PlaceholdersOpenOnce()
    ensures HostPlaceholder[0] == '<' && StationPlaceholder[0] == '<'
    ensures forall d :: 0 < d < |HostPlaceholder| ==> HostPlaceholder[d] != '<'
    ensures forall d :: 0 < d < |StationPlaceholder| ==> StationPlaceholder[d] != '<'
  {
  }

  /** The state after mounting is consistent, and shows the SDK example of
      the initial language; complete tables make the mount succeed. */
  lemma MountConsistent(consumer: bool, tables: Tables, env: Environment)
    ensures var r := Mount(InitialState(consumer), tables, env);
      && (r.Success? ==> Consistent(tables, env, r.value) && r.value.code.SdkCode?)
      && (TablesComplete(tables) ==> r.Success?)
  {
    assert "Go" in SdkLanguages;
  }

  /** Choosing an offered language keeps the selection consistent, and
      complete tables make the choice succeed. */
  lemma SelectLangConsistent(s: SelectionState, lang: string, tables: Tables, env: Environment)
    requires Consistent(tables, env, s) && lang in LanguageOptions(s.protocol)
    ensures var r := SelectLang(s, lang, tables, env);
      && (r.Success? ==> Consistent(tables, env, r.value))
      && (TablesComplete(tables) ==> r.Success?)
  {
  }

  /** Choosing a listed protocol makes the selection consistent whatever it
      was before, and complete tables make the choice succeed. */
  lemma SelectProtocolConsistent(s: SelectionState, protocol: string, tables: Tables, env: Environment)
    requires protocol in ProtocolOptions
    ensures var r := SelectProtocol(s, protocol, tables, env);
      && (r.Success? ==> Consistent(tables, env, r.value) && !r.value.code.Blank?)
      && (TablesComplete(tables) ==> r.Success?)
  {
    assert "Go" in SdkLanguages && "cURL" in RestLanguages;
  }

  /** Switching tabs keeps the selection consistent. */
  lemma SelectTabConsistent(s: SelectionState, tab: Tab, tables: Tables, env: Environment)
    requires Consistent(tables, env, s)
    ensures Consistent(tables, env, SelectTab(s, tab))
  {
  }
}

=== FILE: seqs.dfy ===
/** Facts about sequences that several modules need. */
module Seqs {

  /** Concatenation is associative. */
  lemma ConcatAssoc<T>(x: seq<T>, y: seq<T>, z: seq<T>)
    ensures x + (y + z) == (x + y) + z
  {
  }
}

=== FILE: strconv.dfy ===
/** Decimal rendering of counts, as `strconv.Itoa` does it, with the parse
    that inverts it. */
module Strconv {

  function DigitChar(d: int): (c: char)
    requires 0 <= d < 10
    ensures '0' <= c <= '9'
  {
    ('0' as int + d) as char
  }

  /** The decimal digits of `n`, most significant first, no leading zero. */
  function Digits(n: nat): (s: string)
    ensures |s| >= 1
    ensures forall i :: 0 <= i < |s| ==> '0' <= s[i] <= '9'
    ensures |s| > 1 ==> s[0] != '0'
  {
    if n < 10 then [DigitChar(n)] else Digits(n / 10) + [DigitChar(n % 10)]
  }

  /** `strconv.Itoa`: a minus sign before the digits of a negative number. */
  function Itoa(n: int): (s: string)
    ensures |s| >= 1 && (s[0] == '-' <==> n < 0)
    ensures forall i :: 0 < i < |s| ==> '0' <= s[i] <= '9'
    ensures s[0] == '-' || '0' <= s[0] <= '9'
    ensures Atoi(s) == n
  {
    if n < 0 then
      var s := "-" + Digits(-n);
      DigitsRoundTrip(-n);
      assert s[1..] == Digits(-n);
      s
    else
      DigitsRoundTrip(n);
      Digits(n)
  }

  /** The value of a string of decimal digits. */
  function DigitsValue(s: string): nat
    requires forall i :: 0 <= i < |s| ==> '0' <= s[i] <= '9'
  {
    if |s| == 0 then 0
    else DigitsValue(s[..|s| - 1]) * 10 + (s[|s| - 1] as int - '0' as int)
  }

  /** `strconv.Atoi` on the strings Itoa produces. */
  function Atoi(s: string): int
    requires |s| >= 1
    requires forall i :: 0 < i < |s| ==> '0' <= s[i] <= '9'
    requires s[0] == '-' || '0' <= s[0] <= '9'
  {
    if s[0] == '-' then 0 - DigitsValue(s[1..]) as int else DigitsValue(s)
  }

  lemma {:induction false} DigitsRoundTrip(n: nat)
    ensures DigitsValue(Digits(n)) == n
  {
    if n >= 10 {
      DigitsRoundTrip(n / 10);
      var s := Digits(n);
      assert s[..|s| - 1] == Digits(n / 10);
    }
  }
}

=== FILE: wrappers.dfy ===
/** Option and Result values used wherever the modelled code can come back
    empty-handed or with an error. */
module Wrappers {

  datatype Option<+T> = None | Some(value: T)

  datatype Result<+R, +E> = Success(value: R) | Failure(error: E)
}

=== FILE: zombieresources.dfy ===
/** Reconciliation of zombie resources: connections the database still marks
    active although no broker reports a client for them are deactivated,
    together with their producers and consumers, and stations whose stream is
    gone are marked deleted. Collections are sequences of records; the
    database's and the cluster's answers are parameters. */
module ZombieResources {
  import opened Wrappers
  import opened ObjectIds
  import Strconv
  import Analytics
  import Seqs

  datatype Connection = Connection(id: ObjectId, clientAddress: string, isActive: bool)

  /** A producer or a consumer record: both belong to the connection that
      created them and are switched off the same way. */
  datatype Endpoint = Endpoint(id: ObjectId, name: string, stationName: string, connectionId: ObjectId, isActive: bool)

  datatype Station = Station(id: ObjectId, name: string, isDeleted: bool)

  datatype Db = Db(connections: seq<Connection>, producers: seq<Endpoint>, consumers: seq<Endpoint>, stations: seq<Station>)

  /** Which database or messaging calls fail during one pass. A failing
      update changes nothing. */
  datatype Faults = Faults(findConnections: bool, subscribe: bool, killConnections: bool, killProducers: bool, killConsumers: bool)

  /** What the rest of the system answers during one pass: the decoded
      connection-status replies (`None` for a reply that did not decode),
      the station names whose stream lookup reports "stream not found", and
      the names whose deletion update fails. */
  datatype Observations = Observations(
    replies: seq<Option<map<string, string>>>,
    streamMissing: set<string>,
    stationUpdateFails: set<string>)

  datatype Error = SubscribeFailed

  /** `getActiveConnections`: the active connections, in stored order. */
  function ActiveConnections(conns: seq<Connection>): (r: seq<Connection>)
    ensures forall c :: c in r <==> c in conns && c.isActive
    ensures |r| <= |conns|
  {
    if |conns| == 0 then []
    else (if conns[0].isActive then [conns[0]] else []) + ActiveConnections(conns[1..])
  }

  /** The merge of the status replies: every key of every decoded reply,
      mapped to the empty string. */
  function Aggregate(replies: seq<Option<map<string, string>>>): (m: map<string, string>)
    ensures forall k :: k in m <==> exists j :: 0 <= j < |replies| && replies[j].Some? && k in replies[j].value
    ensures forall k :: k in m ==> m[k] == ""
  {
    if |replies| == 0 then map[]
    else
      var rest := Aggregate(replies[1..]);
      assert forall j :: 0 < j < |replies| ==> replies[j] == replies[1..][j - 1];
      match replies[0]
      case None => rest
      case Some(incoming) => rest + map k | k in incoming.Keys :: ""
  }

  /** `aggregateClientConnections`, with the reply window already over. */
  function AggregateClientConnections(subscribeFails: bool, replies: seq<Option<map<string, string>>>): (r: Result<map<string, string>, Error>)
    ensures r.Success? <==> !subscribeFails
    ensures r.Success? ==> forall k :: k in r.value <==>
      exists j :: 0 <= j < |replies| && replies[j].Some? && k in replies[j].value
    ensures r.Success? ==> forall k :: k in r.value ==> r.value[k] == ""
  {
    if subscribeFails then Failure(SubscribeFailed) else Success(Aggregate(replies))
  }

  /** The ids of the active connections whose hex form no client reported,
      in the order of `active`. */
  function ZombieConnections(active: seq<Connection>, reported: map<string, string>): (z: seq<ObjectId>)
    ensures |z| <= |active|
    ensures forall id :: id in z ==> Hex(id) !in reported
    ensures forall i :: 0 <= i < |active| ==> (active[i].id in z <==> Hex(active[i].id) !in reported)
    ensures forall id :: id in z ==> exists i :: 0 <= i < |active| && active[i].id == id
  {
    if |active| == 0 then []
    else
      var rest := ZombieConnections(active[1..], reported);
      assert forall i :: 0 < i < |active| ==> active[i] == active[1..][i - 1];
      (if Hex(active[0].id) in reported then [] else [active[0].id]) + rest
  }

  /** The zombies of a concatenation are the zombies of each part in turn:
      the scan keeps the original order. */
  lemma {:induction false} ZombiesAppend(a: seq<Connection>, b: seq<Connection>, reported: map<string, string>)
    ensures ZombieConnections(a + b, reported) == ZombieConnections(a, reported) + ZombieConnections(b, reported)
    decreases |a|
  {
    if |a| == 0 {
      assert a + b == b;
    } else {
      var ab := a + b;
      assert ab[0] == a[0];
      assert ab[1..] == a[1..] + b;
      var head := if Hex(a[0].id) in reported then [] else [a[0].id];
      var za, zb := ZombieConnections(a[1..], reported), ZombieConnections(b, reported);
      ZombiesAppend(a[1..], b, reported);
      assert ZombieConnections(ab, reported) == head + (za + zb);
      assert ZombieConnections(a, reported) == head + za;
      Seqs.ConcatAssoc(head, za, zb);
    }
  }


  /** When the replies' keys are the hex forms of a set of reported ids, a
      connection is a zombie exactly when its own id was not reported. */
  lemma ZombieIffUnreported(active: seq<Connection>, reported: map<string, string>, reportedIds: set<ObjectId>)
    requires reported.Keys == set o | o in reportedIds :: Hex(o)
    ensures forall i :: 0 <= i < |active| ==>
      (active[i].id in ZombieConnections(active, reported) <==> active[i].id !in reportedIds)
  {
    forall i | 0 <= i < |active|
      ensures active[i].id in ZombieConnections(active, reported) <==> active[i].id !in reportedIds
    {
      if Hex(active[i].id) in reported {
        var o :| o in reportedIds && Hex(o) == Hex(active[i].id);
        HexInjective(o, active[i].id);
      }
    }
  }

  /** `killRelevantConnections`: the connections whose id is listed become
      inactive; nothing else changes. */
  function KillConnections(conns: seq<Connection>, ids: seq<ObjectId>): (r: seq<Connection>)
    ensures |r| == |conns|
    ensures forall i :: 0 <= i < |conns| ==> r[i].isActive == (conns[i].isActive && conns[i].id !in ids)
    ensures forall i :: 0 <= i < |conns| ==> r[i].(isActive := conns[i].isActive) == conns[i]
    ensures forall i :: 0 <= i < |conns| && conns[i].id !in ids ==> r[i] == conns[i]
  {
    if |conns| == 0 then []
    else
      var rest := KillConnections(conns[1..], ids);
      [if conns[0].id in ids then conns[0].(isActive := false) else conns[0]] + rest
  }

  /** `killProducersByConnections` and `killConsumersByConnections`: the
      records whose connection is listed become inactive; nothing else
      changes. */
  function KillByConnection(rows: seq<Endpoint>, ids: seq<ObjectId>): (r: seq<Endpoint>)
    ensures |r| == |rows|
    ensures forall i :: 0 <= i < |rows| ==> r[i].isActive == (rows[i].isActive && rows[i].connectionId !in ids)
    ensures forall i :: 0 <= i < |rows| ==> r[i].(isActive := rows[i].isActive) == rows[i]
    ensures forall i :: 0 <= i < |rows| && rows[i].connectionId !in ids ==> r[i] == rows[i]
  {
    if |rows| == 0 then []
    else
      var rest := KillByConnection(rows[1..], ids);
      [if rows[0].connectionId in ids then rows[0].(isActive := false) else rows[0]] + rest
  }

  /** Deactivating twice is deactivating once. */
  lemma KillIdempotent(conns: seq<Connection>, rows: seq<Endpoint>, ids: seq<ObjectId>)
    ensures KillConnections(KillConnections(conns, ids), ids) == KillConnections(conns, ids)
    ensures KillByConnection(KillByConnection(rows, ids), ids) == KillByConnection(rows, ids)
  {
    var c1 := KillConnections(conns, ids);
    var c2 := KillConnections(c1, ids);
    forall i | 0 <= i < |c1| ensures c2[i] == c1[i] {
      assert c2[i].(isActive := c1[i].isActive) == c1[i];
    }
    var r1 := KillByConnection(rows, ids);
    var r2 := KillByConnection(r1, ids);
    forall i | 0 <= i < |r1| ensures r2[i] == r1[i] {
      assert r2[i].(isActive := r1[i].isActive) == r1[i];
    }
  }

  /** The deletion update for one name: every station of that name not yet
      deleted is marked deleted. */
  function MarkDeleted(stations: seq<Station>, name: string): (r: seq<Station>)
    ensures |r| == |stations|
    ensures forall i :: 0 <= i < |stations| ==> r[i].isDeleted == (stations[i].isDeleted || stations[i].name == name)
    ensures forall i :: 0 <= i < |stations| ==> r[i].(isDeleted := stations[i].isDeleted) == stations[i]
  {
    if |stations| == 0 then []
    else
      var rest := MarkDeleted(stations[1..], name);
      [if stations[0].name == name && !stations[0].isDeleted then stations[0].(isDeleted := true) else stations[0]] + rest
  }

  /** The stations the pass starts from: those not yet deleted. */
  function Undeleted(stations: seq<Station>): (r: seq<Station>)
    ensures forall s :: s in r <==> s in stations && !s.isDeleted
  {
    if |stations| == 0 then []
    else (if stations[0].isDeleted then [] else [stations[0]]) + Undeleted(stations[1..])
  }

  /** What stale-station removal leaves behind: a station not yet deleted,
      whose stream is reported missing and whose update succeeds, is
      deleted; every other station is unchanged. */
  ghost predicate StaleRemoved(before: seq<Station>, after: seq<Station>, obs: Observations) {
    && |after| == |before|
    && forall i :: 0 <= i < |before| ==>
         after[i] == if !before[i].isDeleted && before[i].name in obs.streamMissing
                        && before[i].name !in obs.stationUpdateFails
                     then before[i].(isDeleted := true) else before[i]
  }

  /** Stale-station removal after the names in `seen` have been handled. */
  ghost predicate RemovedFor(before: seq<Station>, after: seq<Station>, seen: set<string>, obs: Observations) {
    && |after| == |before|
    && (forall i :: 0 <= i < |before| ==> after[i].(isDeleted := before[i].isDeleted) == before[i])
    && (forall i :: 0 <= i < |before| ==>
          after[i].isDeleted == (before[i].isDeleted
                                 || (before[i].name in seen && before[i].name in obs.streamMissing
                                     && before[i].name !in obs.stationUpdateFails)))
  }

  /** Handling one more name keeps `RemovedFor` true. */
  lemma RemovedForStep(before: seq<Station>, after: seq<Station>, seen: set<string>, obs: Observations, name: string)
    requires RemovedFor(before, after, seen, obs)
    ensures RemovedFor(before, HandleName(after, name, obs), seen + {name}, obs)
  {
    if name in obs.streamMissing && name !in obs.stationUpdateFails {
      var next := MarkDeleted(after, name);
      forall i | 0 <= i < |before|
        ensures next[i].(isDeleted := before[i].isDeleted) == before[i]
      {
        assert next[i].(isDeleted := after[i].isDeleted) == after[i];
      }
    }
  }

  /** Once every undeleted station's name is handled, `RemovedFor` is the
      whole of stale-station removal. */
  lemma RemovedForAll(before: seq<Station>, after: seq<Station>, seen: set<string>, obs: Observations)
    requires RemovedFor(before, after, seen, obs)
    requires forall i :: 0 <= i < |before| && !before[i].isDeleted ==> before[i].name in seen
    ensures StaleRemoved(before, after, obs)
  {
    forall i | 0 <= i < |before|
      ensures after[i] == if !before[i].isDeleted && before[i].name in obs.streamMissing
                             && before[i].name !in obs.stationUpdateFails
                          then before[i].(isDeleted := true) else before[i]
    {
      assert after[i].(isDeleted := before[i].isDeleted) == before[i];
    }
  }

  /** The stations after the goroutine for one name: the deletion update
      runs when the stream is missing, and changes nothing when it fails. */
  function HandleName(stations: seq<Station>, name: string, obs: Observations): seq<Station> {
    if name in obs.streamMissing && name !in obs.stationUpdateFails then MarkDeleted(stations, name) else stations
  }

  /** `removeStaleStations`: one deletion update per undeleted station whose
      stream is missing. The per-station goroutines run one after another
      here; their updates commute. */
  method RemoveStaleStations(stations: seq<Station>, obs: Observations) returns (r: seq<Station>)
    ensures StaleRemoved(stations, r, obs)
  {
    var snapshot := Undeleted(stations);
    r := stations;
    ghost var seen: set<string> := {};
    var k := 0;
    while k < |snapshot|
      invariant 0 <= k <= |snapshot|
      invariant forall j :: 0 <= j < k ==> snapshot[j].name in seen
      invariant RemovedFor(stations, r, seen, obs)
    {
      var name := snapshot[k].name;
      RemovedForStep(stations, r, seen, obs, name);
      SeenGrows(snapshot, seen, k);
      r := HandleName(r, name, obs);
      seen := seen + {name};
      k := k + 1;
    }
    SnapshotCovers(stations, snapshot, seen);
    RemovedForAll(stations, r, seen, obs);
  }

  /** Adding the next name keeps every handled name of the snapshot seen. */
  lemma SeenGrows(snapshot: seq<Station>, seen: set<string>, k: nat)
    requires k < |snapshot|
    requires forall j :: 0 <= j < k ==> snapshot[j].name in seen
    ensures forall j :: 0 <= j < k + 1 ==> snapshot[j].name in seen + {snapshot[k].name}
  {
  }

  /** Handling every name of the snapshot handles every undeleted station. */
  lemma SnapshotCovers(stations: seq<Station>, snapshot: seq<Station>, seen: set<string>)
    requires snapshot == Undeleted(stations)
    requires forall j :: 0 <= j < |snapshot| ==> snapshot[j].name in seen
    ensures forall i :: 0 <= i < |stations| && !stations[i].isDeleted ==> stations[i].name in seen
  {
    forall i | 0 <= i < |stations| && !stations[i].isDeleted
      ensures stations[i].name in seen
    {
      assert stations[i] in snapshot;
    }
  }

  /** The connection ids one pass would kill. */
  function Zombies(db: Db, obs: Observations): seq<ObjectId> {
    ZombieConnections(ActiveConnections(db.connections), Aggregate(obs.replies))
  }

  /** `killFunc`: one reconciliation pass. */
  method KillFunc(db: Db, obs: Observations, faults: Faults) returns (r: Db)
    // a failed query of the active connections ends the pass with nothing changed
    ensures faults.findConnections ==> r == db
    // so does a failed subscription for the status replies
    ensures ActiveConnections(db.connections) != [] && faults.subscribe ==> r == db
    // with no active connection no connection, producer or consumer changes
    ensures ActiveConnections(db.connections) == [] ==>
      r.connections == db.connections && r.producers == db.producers && r.consumers == db.consumers
    // exactly the zombies are killed when the connection update succeeds
    ensures !faults.findConnections && !faults.subscribe && !faults.killConnections ==>
      r.connections == KillConnections(db.connections, Zombies(db, obs))
    // producers and consumers change only after a successful connection kill
    ensures faults.killConnections ==> r.connections == db.connections && r.producers == db.producers && r.consumers == db.consumers
    ensures r.producers == db.producers || r.producers == KillByConnection(db.producers, Zombies(db, obs))
    ensures r.consumers == db.consumers || r.consumers == KillByConnection(db.consumers, Zombies(db, obs))
    ensures faults.killProducers ==> r.producers == db.producers
    ensures faults.killConsumers ==> r.consumers == db.consumers
    // each cascade depends only on its own update, not on the other one
    ensures !faults.findConnections && !faults.subscribe && !faults.killConnections && !faults.killProducers ==>
      r.producers == KillByConnection(db.producers, Zombies(db, obs))
    ensures !faults.findConnections && !faults.subscribe && !faults.killConnections && !faults.killConsumers ==>
      r.consumers == KillByConnection(db.consumers, Zombies(db, obs))
    // stale stations are removed whenever the pass is not cut short
    ensures !faults.findConnections && (ActiveConnections(db.connections) == [] || !faults.subscribe) ==>
      StaleRemoved(db.stations, r.stations, obs)
    ensures r.stations == db.stations || StaleRemoved(db.stations, r.stations, obs)
  {
    if faults.findConnections {
      return db;
    }
    var connections := ActiveConnections(db.connections);
    r := db;
    if |connections| > 0 {
      var reported := AggregateClientConnections(faults.subscribe, obs.replies);
      if reported.Failure? {
        return db;
      }
      var zombies := ZombieConnections(connections, reported.value);
      if |zombies| > 0 {
        if !faults.killConnections {
          r := r.(connections := KillConnections(db.connections, zombies));
          if !faults.killProducers {
            r := r.(producers := KillByConnection(db.producers, zombies));
          }
          if !faults.killConsumers {
            r := r.(consumers := KillByConnection(db.consumers, zombies));
          }
        }
      } else {
        KillNothing(db, zombies);
      }
    } else {
      KillNothing(db, Zombies(db, obs));
    }
    var stations := RemoveStaleStations(db.stations, obs);
    r := r.(stations := stations);
  }

  /** An empty kill list changes nothing. */
  lemma KillNothing(db: Db, ids: seq<ObjectId>)
    requires ids == []
    ensures KillConnections(db.connections, ids) == db.connections
    ensures KillByConnection(db.producers, ids) == db.producers
    ensures KillByConnection(db.consumers, ids) == db.consumers
  {
  }

  /** The leader wait of `KillZombieResources`. `isLeaderAt(k)` is what the
      leadership check answers on tick `k`. On a cluster, leadership is
      checked before the tick counter, so the pass loop starts exactly when
      one of the first five checks sees leadership; otherwise the wait gives
      up. A single server proceeds at once. */
  method WaitForLeader(clustered: bool, isLeaderAt: nat -> bool) returns (proceed: bool, checks: nat)
    ensures proceed <==> !clustered || exists k :: 0 <= k < 5 && isLeaderAt(k)
    ensures !clustered ==> checks == 0
    ensures clustered ==> 1 <= checks <= 5
    ensures clustered && proceed ==> isLeaderAt(checks - 1)
    ensures clustered ==> forall k :: 0 <= k < checks - 1 ==> !isLeaderAt(k)
    ensures clustered && !proceed ==> checks == 5
  {
    proceed := true;
    checks := 0;
    if !clustered {
      return;
    }
    var count := 0;
    while true
      invariant 0 <= count <= 4
      invariant checks == count
      invariant forall k :: 0 <= k < count ==> !isLeaderAt(k)
      decreases 4 - count
    {
      var leader := isLeaderAt(checks);
      checks := checks + 1;
      if leader {
        return;
      } else if count > 3 {
        proceed := false;
        return;
      }
      count := count + 1;
    }
  }

  /** The positions of the active records: what `CountDocuments` with an
      `is_active: true` filter counts. */
  ghost function ActiveIndices(rows: seq<Endpoint>): set<nat> {
    set i: nat | i < |rows| && rows[i].isActive
  }

  /** The number of active records. */
  function ActiveCount(rows: seq<Endpoint>): (n: nat)
    ensures n == |ActiveIndices(rows)|
    ensures n <= |rows|
    ensures n > 0 <==> exists i :: 0 <= i < |rows| && rows[i].isActive
  {
    if |rows| == 0 then 0
    else
      var init := rows[..|rows| - 1];
      var last := |rows| - 1;
      assert ActiveIndices(rows) == ActiveIndices(init) + (if rows[last].isActive then {last} else {});
      assert last !in ActiveIndices(init);
      ActiveCount(init) + (if rows[last].isActive then 1 else 0)
  }

  /** `updateActiveProducersAndConsumers`: with both counts available, some
      producer or consumer active and analytics enabled, a "data-sent" event
      reports both counts as decimal strings. */
  function ActivityReport(db: Db, producersCountFails: bool, consumersCountFails: bool, shouldSend: bool,
                          cfg: Analytics.Config, deploymentId: string): (r: Option<Analytics.Capture>)
    ensures r.Some? <==>
      (&& !producersCountFails && !consumersCountFails && shouldSend
       && ((exists i :: 0 <= i < |db.producers| && db.producers[i].isActive)
           || (exists i :: 0 <= i < |db.consumers| && db.consumers[i].isActive)))
    ensures r.Some? ==>
      && r.value.event == "data-sent"
      && "active-producers" in r.value.properties
      && r.value.properties["active-producers"] == Strconv.Itoa(ActiveCount(db.producers))
      && "active-consumers" in r.value.properties
      && r.value.properties["active-consumers"] == Strconv.Itoa(ActiveCount(db.consumers))
  {
    if producersCountFails || consumersCountFails then None
    else
      var producers := ActiveCount(db.producers);
      var consumers := ActiveCount(db.consumers);
      if (producers > 0 || consumers > 0) && shouldSend then
        var params := [Analytics.EventParam("active-producers", Strconv.Itoa(producers)),
                       Analytics.EventParam("active-consumers", Strconv.Itoa(consumers))];
        Analytics.EventProperties(cfg, deploymentId, "", params, "data-sent", "active-producers");
        Analytics.EventProperties(cfg, deploymentId, "", params, "data-sent", "active-consumers");
        Some(Analytics.SendEventWithParams(cfg, deploymentId, "", params, "data-sent"))
      else None
  }
}
